=== FILE: README.md ===
# agro-market storefront: a Dafny model of its screen logic

agro-market is an Android storefront written with Jetpack Compose. It runs against a remote REST backend. Most of its code is layout. The rules that matter sit inside UI callbacks:

- the home tab's product list: a filter, then one of five sort orders;
- the main screen's local mirror of products, cart entries and orders, updated after each network call;
- the quantity steppers on the product card, the cart row and the product page;
- the form guards of the checkout dialog and the review dialog;
- the administrator's order-status dialog;
- the session store, with the bearer-header rule and the start destination;
- the sign-in / sign-up outcome handling;
- the three-tab bottom bar.

This project writes each of these as a pure function over immutable datatypes and proves what the code promises about it.

## Modules

| module | file | models |
|---|---|---|
| `Wrappers` | wrappers.dfy | `Option` |
| `Text` | text.dfy | Kotlin's `contains(…, ignoreCase = true)`, `isBlank()`, `String.compareTo`, and how a nullable string renders in a template |
| `ApiModel` | api_model.dfy | the DTOs, `OrderStatus.toRussian`, `getImageResource`, the abstract outcome of a call, and the requests the screens send |
| `Session` | session.dfy | `SharedPrefManager` as a typed key-value map, the `RetrofitClient` interceptor and its initialisation guard, and the activity's start destination |
| `ProductGrid` | product_grid.dfy | the filter controls, the filter predicate, the sort orders and the stable sort |
| `MainScreen` | main_screen.dfy | the mirror callbacks, the product-card stepper, and logout |
| `CartScreen` | cart_screen.dfy | the cart-row buttons, the checkout button and dialog, and the displayed total |
| `DetailsScreen` | details_screen.dfy | review visibility and append, the review dialog, the rating bars, the page's stepper, and the average rating |
| `OrderHistory` | order_history.dfy | the expanded card, the status dialog and menu, and the card's displayed sum |
| `AuthScreen` | auth_screen.dfy | the form toggle, and one press of sign-in or sign-up |
| `BottomNavigation` | bottom_navigation.dfy | tab selection and the route shown |

### Network calls

A call through the gateway is an `Outcome`, which is one of:

- `Success(body)`;
- `HttpError(errorBody)`: a non-2xx answer;
- `NetworkError(message)`: a thrown transport exception.

The main screen's callbacks run inside `scope.launch` and catch nothing. A transport exception therefore ends the launched block: the update after the call is skipped. Such a step ends `Thrown`. A non-2xx answer does not throw, so the local update goes ahead whatever the server answered. `MainScreen.LocalUpdateIgnoresServerAnswer` states this.

### Behaviour worth knowing

- Local updates follow any answer that does not throw. A non-2xx answer is mirrored just like a success.
- Only the sign-in and sign-up forms catch exceptions. The main screen's callbacks do not, so a transport failure ends the launched block before its local update.
- Sign-in and sign-up store four fields: token, username, admin flag and user id. The refresh token is not saved.
- A failed sign-in leaves the store as it was.
- The cart row's minus fires only above quantity 1; removal is the delete button's job. The product card's minus can reach 0: it then sends quantity 0 and sets the card's count to 0.
- The product page's "В корзину" sets the count to 1 whatever the stock, so on a product with stock 0 the count goes above the stock (`DetailsScreen.DetailCountInRange`).
- Checkout resets `countInCart` only where it is positive, so "every count is 0 afterwards" needs counts that were not negative (`MainScreen.CheckoutClearsCounts`).

## Model

| member | source | states |
|---|---|---|
| `Text.EqualsIgnoreCase` | app/src/main/java/ru/driving/agro_market/ui/screens/MainScreen.kt:285 | every character matches itself when case is ignored |
| `Text.EqualsIgnoreCaseSymmetric` | app/src/main/java/ru/driving/agro_market/ui/screens/MainScreen.kt:285 | ignoring case, a matches b exactly when b matches a |
| `Text.CapitalMatchesSmall` | app/src/main/java/ru/driving/agro_market/ui/screens/MainScreen.kt:285 | a small ASCII Latin or basic Cyrillic letter and its capital compare equal when case is ignored |
| `Text.RegionMatchesFrom` | app/src/main/java/ru/driving/agro_market/ui/screens/MainScreen.kt:285 | the character loop is true exactly when every remaining query character matches the text, case ignored |
| `Text.IndexOfFrom` | app/src/main/java/ru/driving/agro_market/ui/screens/MainScreen.kt:285 | returns the first offset at or after `start` where the query matches, or -1 exactly when none does |
| `Text.ContainsIgnoreCase` | app/src/main/java/ru/driving/agro_market/ui/screens/MainScreen.kt:285 | true exactly when the query occurs at some offset, case ignored; the empty query is always contained |
| `Text.IsBlank` | app/src/main/java/ru/driving/agro_market/ui/screens/CartScreen.kt:196 | true exactly when every character is JVM whitespace, so the empty string is blank |
| `Text.StringLessEq` | app/src/main/java/ru/driving/agro_market/ui/screens/MainScreen.kt:292-293 | `compareTo(b) <= 0`: a name is at most every name it is a prefix of, itself included |
| `Text.StringLessEqTotal` | app/src/main/java/ru/driving/agro_market/ui/screens/MainScreen.kt:292-293 | any two names are comparable under the lexicographic order |
| `Text.StringLessEqTransitive` | app/src/main/java/ru/driving/agro_market/ui/screens/MainScreen.kt:292-293 | the name order is transitive |
| `Text.StringLessEqAntisymmetric` | app/src/main/java/ru/driving/agro_market/ui/screens/MainScreen.kt:292-293 | two names that each precede the other are equal |
| `Text.Render` | app/src/main/java/ru/driving/agro_market/ui/screens/AuthScreen.kt:205 | a present string renders as itself, and null renders as "null" |
| `ApiModel.ToRussian` | app/src/main/java/ru/driving/agro_market/api/ApiService.kt:123-130 | every status has a non-empty Russian label |
| `ApiModel.StatusOfLabel` | app/src/main/java/ru/driving/agro_market/api/ApiService.kt:123-130 | a recognised label maps back to a status whose label it is |
| `ApiModel.ToRussianInjective` | app/src/main/java/ru/driving/agro_market/api/ApiService.kt:123-130 | the labels give back their status, so the four labels are distinct |
| `ApiModel.AllStatusesComplete` | app/src/main/java/ru/driving/agro_market/api/ApiService.kt:117-122 | `entries` lists each of the four statuses exactly once |
| `ApiModel.ImageResource` | app/src/main/java/ru/driving/agro_market/api/ApiService.kt:46-54 | ids 15, 9, 16, 5 get images 1 to 4 respectively, and every other id gets the default image |
| `Session.SaveAccessToken` | app/src/main/java/ru/driving/agro_market/api/ApiService.kt:218-220 | the token key is present exactly when a token is given, so null removes it; every other key is untouched |
| `Session.SaveUsername` | app/src/main/java/ru/driving/agro_market/api/ApiService.kt:222-224 | writes only the username key |
| `Session.SaveIsAdmin` | app/src/main/java/ru/driving/agro_market/api/ApiService.kt:226-228 | writes only the admin-flag key |
| `Session.SaveUserId` | app/src/main/java/ru/driving/agro_market/api/ApiService.kt:230-232 | writes only the user-id key |
| `Session.GetAccessToken` | app/src/main/java/ru/driving/agro_market/api/ApiService.kt:238-240 | null exactly when no token is stored |
| `Session.GetUsername` | app/src/main/java/ru/driving/agro_market/api/ApiService.kt:246-248 | "" when no name is stored |
| `Session.GetIsAdmin` | app/src/main/java/ru/driving/agro_market/api/ApiService.kt:234-236 | false when no flag is stored |
| `Session.GetUserId` | app/src/main/java/ru/driving/agro_market/api/ApiService.kt:242-244 | 0 when no id is stored |
| `Session.EmptyStoreDefaults` | app/src/main/java/ru/driving/agro_market/api/ApiService.kt:234-248 | a fresh store answers null, "", false and 0 |
| `Session.SaveGetRoundTrip` | app/src/main/java/ru/driving/agro_market/api/ApiService.kt:218-248 | each getter returns what its save wrote, including a null token |
| `Session.SaveFrame` | app/src/main/java/ru/driving/agro_market/api/ApiService.kt:218-232 | each save leaves the other three getters' answers unchanged |
| `Session.Intercept` | app/src/main/java/ru/driving/agro_market/api/ApiService.kt:261-268 | appends `Authorization: Bearer <token>` when a token is stored, and leaves the headers alone otherwise |
| `Session.BearerExactlyWhenToken` | app/src/main/java/ru/driving/agro_market/api/ApiService.kt:263-266 | a request carries an authorisation header exactly when a token is stored |
| `Session.Initialize` | app/src/main/java/ru/driving/agro_market/api/ApiService.kt:257-278 | after `initialize` the client is initialised |
| `Session.GetApiService` | app/src/main/java/ru/driving/agro_market/api/ApiService.kt:280-285 | answers the gateway for the base URL exactly when initialised, and the IllegalStateException message otherwise |
| `Session.InitializeGuard` | app/src/main/java/ru/driving/agro_market/api/ApiService.kt:255-285 | the gateway fails before `initialize` and succeeds after it, and running it twice changes nothing |
| `Session.StartDestination` | app/src/main/java/ru/driving/agro_market/MainActivity.kt:39 | "auth" exactly when no token is stored, "main" otherwise |
| `ProductGrid.Shown` | app/src/main/java/ru/driving/agro_market/ui/screens/MainScreen.kt:284-287 | a product passes exactly when the query occurs in its name at some offset (case ignored), its category is the selected one if any, and it is a favourite if favourites-only is on |
| `ProductGrid.Filter` | app/src/main/java/ru/driving/agro_market/ui/screens/MainScreen.kt:284-287 | every product kept passes all three conditions |
| `ProductGrid.FilterCounts` | app/src/main/java/ru/driving/agro_market/ui/screens/MainScreen.kt:284-287 | keeps exactly the passing products, each as often as the list holds it |
| `ProductGrid.FilterAppend` | app/src/main/java/ru/driving/agro_market/ui/screens/MainScreen.kt:284-287 | filtering distributes over concatenation, so it keeps list order |
| `ProductGrid.SetQuery` | app/src/main/java/ru/driving/agro_market/ui/screens/MainScreen.kt:317 | typing changes the query only |
| `ProductGrid.ChooseAllCategories` | app/src/main/java/ru/driving/agro_market/ui/screens/MainScreen.kt:348 | "Все категории" clears the category only |
| `ProductGrid.ClickCategory` | app/src/main/java/ru/driving/agro_market/ui/screens/MainScreen.kt:364-367 | a chip selects its category unless it was selected, in which case it clears the selection |
| `ProductGrid.ToggleFavorites` | app/src/main/java/ru/driving/agro_market/ui/screens/MainScreen.kt:386 | flips favourites-only and nothing else |
| `ProductGrid.TogglesUndo` | app/src/main/java/ru/driving/agro_market/ui/screens/MainScreen.kt:364-386 | a second click on the same chip, or on the heart, restores the filter |
| `ProductGrid.SortOrderOf` | app/src/main/java/ru/driving/agro_market/ui/screens/MainScreen.kt:288-295 | each label selects its order, in both directions: "Цена (по возрастанию)" price ascending, "Цена (по убыванию)" price descending, "Алфавит (A-Z)" name ascending, "Алфавит (Z-A)" name descending; any unlisted option gives the id order |
| `ProductGrid.SortOptionsDistinct` | app/src/main/java/ru/driving/agro_market/ui/screens/MainScreen.kt:413-421 | the four menu options give four different orders, none of them the id order, and the initial option is price ascending |
| `ProductGrid.Before` | app/src/main/java/ru/driving/agro_market/ui/screens/MainScreen.kt:288-295 | every one of the five comparators puts a product level with itself (compare(a, a) == 0) |
| `ProductGrid.BeforeTotal` | app/src/main/java/ru/driving/agro_market/ui/screens/MainScreen.kt:289-295 | every comparator is total |
| `ProductGrid.BeforeTransitive` | app/src/main/java/ru/driving/agro_market/ui/screens/MainScreen.kt:289-295 | every comparator is transitive |
| `ProductGrid.InsertPermutes` | app/src/main/java/ru/driving/agro_market/ui/screens/MainScreen.kt:288-296 | inserting adds exactly the one product |
| `ProductGrid.InsertMembers` | app/src/main/java/ru/driving/agro_market/ui/screens/MainScreen.kt:288-296 | after inserting, the list holds the new product and the old ones, and nothing else |
| `ProductGrid.SortedTail` | app/src/main/java/ru/driving/agro_market/ui/screens/MainScreen.kt:288-296 | the tail of a sorted list is sorted |
| `ProductGrid.SortedCons` | app/src/main/java/ru/driving/agro_market/ui/screens/MainScreen.kt:288-296 | a product that may precede every element of a sorted list can go in front of it |
| `ProductGrid.Sort` | app/src/main/java/ru/driving/agro_market/ui/screens/MainScreen.kt:288-296 | the sorted list is a permutation of its input |
| `ProductGrid.InsertSorted` | app/src/main/java/ru/driving/agro_market/ui/screens/MainScreen.kt:288-296 | inserting into a sorted list keeps it sorted |
| `ProductGrid.SortSorted` | app/src/main/java/ru/driving/agro_market/ui/screens/MainScreen.kt:288-296 | the result is sorted under the chosen comparator |
| `ProductGrid.EquivalentToCons` | app/src/main/java/ru/driving/agro_market/ui/screens/MainScreen.kt:288-296 | the products with a given sort key are found head first |
| `ProductGrid.NotBothEquivalent` | app/src/main/java/ru/driving/agro_market/ui/screens/MainScreen.kt:289-295 | a product that may not precede another does not share its sort key |
| `ProductGrid.InsertPastHead` | app/src/main/java/ru/driving/agro_market/ui/screens/MainScreen.kt:288-296 | when the inserted product goes past the head, the two keep their order in every key's sub-list |
| `ProductGrid.InsertStable` | app/src/main/java/ru/driving/agro_market/ui/screens/MainScreen.kt:288-296 | inserting after the products it does not precede keeps equal-key products in order |
| `ProductGrid.SortStable` | app/src/main/java/ru/driving/agro_market/ui/screens/MainScreen.kt:288-296 | `sortedWith` is stable: equal-key products keep their list order |
| `ProductGrid.View` | app/src/main/java/ru/driving/agro_market/ui/screens/MainScreen.kt:281-298 | the shown list is sorted, is a permutation of the filtered products, and holds a product exactly when the list holds it and it passes |
| `ProductGrid.ShownExactly` | app/src/main/java/ru/driving/agro_market/ui/screens/MainScreen.kt:284-287 | a product is shown exactly when its name contains the query (case ignored), its category is the selected one if any, and it is a favourite if favourites-only is on |
| `ProductGrid.ViewStable` | app/src/main/java/ru/driving/agro_market/ui/screens/MainScreen.kt:288-296 | equal-key products appear in list order |
| `ProductGrid.InitialFilterShowsAll` | app/src/main/java/ru/driving/agro_market/ui/screens/MainScreen.kt:274-287 | with the initial controls every product is shown, under any option |
| `MainScreen.SetCartQuantity` | app/src/main/java/ru/driving/agro_market/ui/screens/MainScreen.kt:146-150 | sets the quantity on exactly the entries of that product and keeps every other entry and the length |
| `MainScreen.SetCountInCart` | app/src/main/java/ru/driving/agro_market/ui/screens/MainScreen.kt:151-156 | sets `countInCart` on exactly the products with that id and keeps the rest |
| `MainScreen.SetOrderStatus` | app/src/main/java/ru/driving/agro_market/ui/screens/MainScreen.kt:247-251 | sets the status on exactly the orders with that id and keeps the rest |
| `MainScreen.RemoveProduct` | app/src/main/java/ru/driving/agro_market/ui/screens/MainScreen.kt:164 | no entry of that product remains |
| `MainScreen.RemoveProductCounts` | app/src/main/java/ru/driving/agro_market/ui/screens/MainScreen.kt:164 | the product's entries go, and every other entry keeps its multiplicity |
| `MainScreen.RemoveProductMembers` | app/src/main/java/ru/driving/agro_market/ui/screens/MainScreen.kt:164 | what remains is exactly the cart's entries of other products |
| `MainScreen.RemoveProductAppend` | app/src/main/java/ru/driving/agro_market/ui/screens/MainScreen.kt:164 | removal distributes over concatenation, so the rest keep their order |
| `MainScreen.RemoveAbsentProduct` | app/src/main/java/ru/driving/agro_market/ui/screens/MainScreen.kt:164 | removing a product that is not in the cart changes nothing |
| `MainScreen.ResetCounts` | app/src/main/java/ru/driving/agro_market/ui/screens/MainScreen.kt:177-182 | positive counts become 0 and every other product is kept |
| `MainScreen.OnUpdateQuantity` | app/src/main/java/ru/driving/agro_market/ui/screens/MainScreen.kt:141-157 | sends the quantity; unless the call throws, matching cart entries and products take the count and everything else stays |
| `MainScreen.OnRemoveItem` | app/src/main/java/ru/driving/agro_market/ui/screens/MainScreen.kt:159-170 | sends quantity 0; unless the call throws, the product's entries go, the others stay, and matching products get count 0 |
| `MainScreen.OnCheckout` | app/src/main/java/ru/driving/agro_market/ui/screens/MainScreen.kt:172-185 | with a returned order: the cart empties, positive counts drop to 0, and the order is appended last; with no body or a non-2xx answer nothing changes |
| `MainScreen.CheckoutClearsCounts` | app/src/main/java/ru/driving/agro_market/ui/screens/MainScreen.kt:177-182 | after a returned order no product counts as in the cart, if none was negative |
| `MainScreen.OnUpdateStatus` | app/src/main/java/ru/driving/agro_market/ui/screens/MainScreen.kt:243-253 | sends the status; unless the call throws, orders with that id take it and nothing else changes |
| `MainScreen.LocalUpdateIgnoresServerAnswer` | app/src/main/java/ru/driving/agro_market/ui/screens/MainScreen.kt:143-170 | a non-2xx answer leaves the same mirror as a success |
| `MainScreen.OnLogout` | app/src/main/java/ru/driving/agro_market/ui/screens/MainScreen.kt:254-257 | clears the token, goes to "auth", and keeps name, admin flag and user id |
| `MainScreen.CountRequest` | app/src/main/java/ru/driving/agro_market/ui/screens/MainScreen.kt:208-217 | a product not in the cart is added with 1 whatever was asked; otherwise the asked quantity is sent and stored |
| `MainScreen.RefreshedCart` | app/src/main/java/ru/driving/agro_market/ui/screens/MainScreen.kt:219-222 | the refreshed cart is the body; it is empty when a 2xx answer has no body or the answer is non-2xx |
| `MainScreen.OnUpdateCountInCartAsWritten` | app/src/main/java/ru/driving/agro_market/ui/screens/MainScreen.kt:206-224 | as written: writes the card's product at the grid index and leaves every other slot |
| `MainScreen.AsWrittenOverwritesOtherProduct` | app/src/main/java/ru/driving/agro_market/ui/screens/MainScreen.kt:206-217 | when the grid index holds another product, that product is overwritten |
| `MainScreen.CheaperShownFirst` | app/src/main/java/ru/driving/agro_market/ui/screens/MainScreen.kt:281-298 | with the initial controls, a list of a dearer then a cheaper product is shown cheaper first |
| `MainScreen.AsWrittenLosesProduct` | app/src/main/java/ru/driving/agro_market/ui/screens/MainScreen.kt:427-433 | under the default sort, adding the cheaper of two products to the cart from the grid erases the other one |
| `MainScreen.OnUpdateCountInCart` | app/src/main/java/ru/driving/agro_market/ui/screens/MainScreen.kt:206-224 | corrected: nothing happens when the count is unchanged; otherwise the request is sent, products with that id take the count, and the cart is refreshed |
| `MainScreen.CorrectedKeepsProducts` | app/src/main/java/ru/driving/agro_market/ui/screens/MainScreen.kt:206-217 | the corrected update keeps every product in its slot; only counts change |
| `MainScreen.OnUpdateFavoriteAsWritten` | app/src/main/java/ru/driving/agro_market/ui/screens/MainScreen.kt:226-233 | as written: writes the card's product, with the new mark, at the grid index |
| `MainScreen.AsWrittenFavoriteLosesProduct` | app/src/main/java/ru/driving/agro_market/ui/screens/MainScreen.kt:427-433 | under the default sort, marking the cheaper product a favourite from the grid erases the other one |
| `MainScreen.SetFavorite` | app/src/main/java/ru/driving/agro_market/ui/screens/MainScreen.kt:231 | sets the mark on exactly the products with that id |
| `MainScreen.OnUpdateFavorite` | app/src/main/java/ru/driving/agro_market/ui/screens/MainScreen.kt:226-233 | corrected: an unchanged mark does nothing; otherwise the toggle is sent and only the products with that id change, only in their mark |
| `MainScreen.ItemStepper` | app/src/main/java/ru/driving/agro_market/ui/screens/MainScreen.kt:566-621 | minus decrements a positive count, plus increments only below stock, "add" sets 1, and a count within stock stays within it |
| `MainScreen.StepperRequests` | app/src/main/java/ru/driving/agro_market/ui/screens/MainScreen.kt:488-490 | "add" sends add-with-1, minus and plus send the new quantity, and plus at the stock limit sends nothing |
| `CartScreen.CartItemClick` | app/src/main/java/ru/driving/agro_market/ui/screens/CartScreen.kt:271-312 | minus asks for quantity-1 only above 1, plus asks for quantity+1 only below stock, and delete asks for removal; all by product id |
| `CartScreen.Apply` | app/src/main/java/ru/driving/agro_market/ui/screens/CartScreen.kt:125-131 | a row request sends the new quantity, or 0 for removal; unless the call throws, the product's `countInCart` takes the quantity (0 for removal) and the orders are kept, while in the cart the product's entries take the quantity and nothing else in the cart changes, or the product's entries go and every other entry keeps its multiplicity |
| `CartScreen.RowClickKeepsCartWellFormed` | app/src/main/java/ru/driving/agro_market/ui/screens/CartScreen.kt:271-298 | a row click keeps every quantity in 1..stock and the product ids distinct |
| `CartScreen.QuantitySetKeepsWellFormed` | app/src/main/java/ru/driving/agro_market/ui/screens/MainScreen.kt:146-150 | writing a quantity in 1..stock into one row's product keeps the cart well formed |
| `CartScreen.RemovalKeepsWellFormed` | app/src/main/java/ru/driving/agro_market/ui/screens/MainScreen.kt:164 | removing a product's entries keeps the cart well formed |
| `CartScreen.RemovalKeepsUniqueIds` | app/src/main/java/ru/driving/agro_market/ui/screens/MainScreen.kt:164 | removal keeps distinct product ids distinct |
| `CartScreen.CheckoutEnabled` | app/src/main/java/ru/driving/agro_market/ui/screens/CartScreen.kt:90 | the checkout button is enabled exactly when the cart is non-empty |
| `CartScreen.ConfirmCheckout` | app/src/main/java/ru/driving/agro_market/ui/screens/CartScreen.kt:196-198 | the dialog passes (address, phone) on exactly when neither is blank |
| `CartScreen.CartTotal` | app/src/main/java/ru/driving/agro_market/ui/screens/CartScreen.kt:68 | the price × quantity sum over the entries totals 0 for an empty cart; `CartTotalAppend` and `CartTotalNonNegative` state its additivity and sign |
| `CartScreen.CartTotalAppend` | app/src/main/java/ru/driving/agro_market/ui/screens/CartScreen.kt:67-69 | the total of price × quantity adds up over parts of the cart |
| `CartScreen.CartTotalNonNegative` | app/src/main/java/ru/driving/agro_market/ui/screens/CartScreen.kt:67-69 | with non-negative prices and quantities the total is non-negative |
| `CartScreen.EnterCart` | app/src/main/java/ru/driving/agro_market/ui/screens/CartScreen.kt:63-69 | the tab opens with the dialog closed, showing the sum of price × quantity over the cart (0 when empty) |
| `CartScreen.CartStep` | app/src/main/java/ru/driving/agro_market/ui/screens/CartScreen.kt:86-147 | a row click sets the total to the sum over the cart and hands nothing on; checkout opens the dialog only for a non-empty cart and dismiss closes it, both leaving the total as it was; confirm with valid fields hands on the request, closes the dialog and resets the total to 0; invalid fields change nothing |
| `CartScreen.ConfirmedCheckoutAgrees` | app/src/main/java/ru/driving/agro_market/ui/screens/CartScreen.kt:143-147 | after a confirmed checkout that returns an order, the emptied cart totals the 0 the tab shows, and checkout is disabled |
| `DetailsScreen.CanReview` | app/src/main/java/ru/driving/agro_market/ui/screens/ProductDetailsScreen.kt:89 | the add-review button shows exactly when no loaded review has the stored user id |
| `DetailsScreen.CanReviewIffNoReview` | app/src/main/java/ru/driving/agro_market/ui/screens/ProductDetailsScreen.kt:89 | visibility is the negation of "has a review by this user" |
| `DetailsScreen.LoadReviews` | app/src/main/java/ru/driving/agro_market/ui/screens/ProductDetailsScreen.kt:83-90 | after loading, the list is the product's reviews and the button shows exactly when the user has none |
| `DetailsScreen.AddReview` | app/src/main/java/ru/driving/agro_market/ui/screens/ProductDetailsScreen.kt:115-139 | sends the review; unless the call throws, appends a review with id 0 and the stored username, and hides the button |
| `DetailsScreen.AddReviewAppends` | app/src/main/java/ru/driving/agro_market/ui/screens/ProductDetailsScreen.kt:126-138 | earlier reviews stay in place and the new one is last; the appended review has user id 0, so it counts as the user's only when the stored id is 0 |
| `DetailsScreen.ClickStar` | app/src/main/java/ru/driving/agro_market/ui/screens/ProductDetailsScreen.kt:518-520 | star i sets rating i+1, which is in 1..5 |
| `DetailsScreen.SubmitReview` | app/src/main/java/ru/driving/agro_market/ui/screens/ProductDetailsScreen.kt:494-499 | submits exactly when a star was chosen and the comment is not blank |
| `DetailsScreen.ClickStars` | app/src/main/java/ru/driving/agro_market/ui/screens/ProductDetailsScreen.kt:518-520 | after clicks the rating is the last star's index + 1 |
| `DetailsScreen.ClickStarsRange` | app/src/main/java/ru/driving/agro_market/ui/screens/ProductDetailsScreen.kt:464-520 | clicks keep the rating in 0..5 |
| `DetailsScreen.SubmittedRatingInRange` | app/src/main/java/ru/driving/agro_market/ui/screens/ProductDetailsScreen.kt:464-499 | from the initial 0, any submitted rating is in 1..5 |
| `DetailsScreen.RatingBar` | app/src/main/java/ru/driving/agro_market/ui/screens/ProductDetailsScreen.kt:446-457 | five stars, star i filled exactly when i < rating |
| `DetailsScreen.FilledPrefix` | app/src/main/java/ru/driving/agro_market/ui/screens/ProductDetailsScreen.kt:448-452 | a row whose first k stars are filled shows k clamped to the row's length |
| `DetailsScreen.RatingBarFilled` | app/src/main/java/ru/driving/agro_market/ui/screens/ProductDetailsScreen.kt:446-457 | a rating bar fills the rating clamped to 0..5 |
| `DetailsScreen.AverageRating` | app/src/main/java/ru/driving/agro_market/ui/screens/ProductDetailsScreen.kt:162-166 | 0 with no reviews, otherwise the value that times the count gives the rating sum |
| `DetailsScreen.SumRatings` | app/src/main/java/ru/driving/agro_market/ui/screens/ProductDetailsScreen.kt:162-166 | n ratings in 1..5 sum to between n and 5n |
| `DetailsScreen.AverageInRange` | app/src/main/java/ru/driving/agro_market/ui/screens/ProductDetailsScreen.kt:162-166 | with ratings in 1..5 and at least one review, the average is in 1..5 |
| `DetailsScreen.TruncateToInt` | app/src/main/java/ru/driving/agro_market/ui/screens/ProductDetailsScreen.kt:341 | `toInt` truncates toward zero |
| `DetailsScreen.AverageStars` | app/src/main/java/ru/driving/agro_market/ui/screens/ProductDetailsScreen.kt:341 | the average's star row fills 1 to 5 stars, and none with no reviews |
| `DetailsScreen.EnterDetails` | app/src/main/java/ru/driving/agro_market/ui/screens/ProductDetailsScreen.kt:157-158 | the page starts from the product's count and favourite mark |
| `DetailsScreen.CartCall` | app/src/main/java/ru/driving/agro_market/ui/screens/ProductDetailsScreen.kt:100-108 | a new entry sends add-with-1; otherwise the page's count is sent as the quantity |
| `DetailsScreen.DetailClick` | app/src/main/java/ru/driving/agro_market/ui/screens/ProductDetailsScreen.kt:236-305 | minus decrements and sends the new count; plus increments below stock and sends the count even when capped; "add" sets 1 and sends add-with-1; the heart flips the mark and sends a toggle |
| `DetailsScreen.DetailCountInRange` | app/src/main/java/ru/driving/agro_market/ui/screens/ProductDetailsScreen.kt:236-283 | minus and plus keep the count in 0..stock; "add" ignores the stock, so on a stock-0 product it sets the count to 1; minus from 1 brings the add button back |
| `OrderHistory.StatusChoices` | app/src/main/java/ru/driving/agro_market/ui/screens/OrderHistoryScreen.kt:163-169 | the menu offers all four statuses, whatever the current one |
| `OrderHistory.HistoryStep` | app/src/main/java/ru/driving/agro_market/ui/screens/OrderHistoryScreen.kt:58-148 | a card tap, possible only while the dialog is closed, changes only the expanded card: it expands the tapped card unless it was expanded, and at most one card is expanded; opening preselects the order's status; save hands on (order id, chosen status) once and closes; cancel and dismiss close without handing anything on; save, cancel and dismiss change only the dialog's visibility |
| `OrderHistory.ClickTwice` | app/src/main/java/ru/driving/agro_market/ui/screens/OrderHistoryScreen.kt:59 | with the dialog closed, two taps on a card restore the expansion when that card or none was expanded, and collapse everything otherwise |
| `OrderHistory.AnyStatusCanFollow` | app/src/main/java/ru/driving/agro_market/ui/screens/OrderHistoryScreen.kt:100-137 | from any order, open, choose any status and save hands on exactly (id, that status) |
| `OrderHistory.CancelSendsNothing` | app/src/main/java/ru/driving/agro_market/ui/screens/OrderHistoryScreen.kt:119-146 | leaving the dialog by cancel or a tap outside hands on nothing |
| `OrderHistory.NonAdminSendsNothing` | app/src/main/java/ru/driving/agro_market/ui/screens/OrderHistoryScreen.kt:98-110 | a non-admin's runs never show the dialog and never hand on an update |
| `OrderHistory.SavedStatusReachesMirror` | app/src/main/java/ru/driving/agro_market/ui/screens/OrderHistoryScreen.kt:134-137 | a saved status, passed to the main screen, changes exactly the chosen order's status |
| `OrderHistory.ItemsSum` | app/src/main/java/ru/driving/agro_market/ui/screens/OrderHistoryScreen.kt:86 | the price × quantity sum over an order's items is 0 for none; `ItemsSumAppend` and `ItemsSumNonNegative` state its additivity and sign |
| `OrderHistory.DisplayedSum` | app/src/main/java/ru/driving/agro_market/ui/screens/OrderHistoryScreen.kt:86 | a card shows 0 for an order without items |
| `OrderHistory.ItemsSumNonNegative` | app/src/main/java/ru/driving/agro_market/ui/screens/OrderHistoryScreen.kt:86 | with non-negative prices and quantities the shown sum is non-negative |
| `OrderHistory.DisplayedSumFromItems` | app/src/main/java/ru/driving/agro_market/ui/screens/OrderHistoryScreen.kt:86 | the card's sum depends on the items only, not on `totalPrice`, and adds up over items |
| `OrderHistory.ItemsSumAppend` | app/src/main/java/ru/driving/agro_market/ui/screens/OrderHistoryScreen.kt:86 | the item sum adds up over concatenation |
| `AuthScreen.NavigateToSignUp` | app/src/main/java/ru/driving/agro_market/ui/screens/AuthScreen.kt:98 | the sign-up link shows the sign-up form only |
| `AuthScreen.NavigateToSignIn` | app/src/main/java/ru/driving/agro_market/ui/screens/AuthScreen.kt:113 | the sign-in link shows the sign-in form only |
| `AuthScreen.ExactlyOneForm` | app/src/main/java/ru/driving/agro_market/ui/screens/AuthScreen.kt:61-115 | the screen opens on sign-in, exactly one form shows, and the links undo each other |
| `AuthScreen.RejectionPrefix` | app/src/main/java/ru/driving/agro_market/ui/screens/AuthScreen.kt:205 | a rejected sign-in reads "Ошибка входа: " and a rejected sign-up "Ошибка регистрации: " |
| `AuthScreen.SaveSession` | app/src/main/java/ru/driving/agro_market/ui/screens/AuthScreen.kt:91-96 | token, name, admin flag and user id read back as received; no other key is added or changed, so the refresh token is not stored |
| `AuthScreen.Submit` | app/src/main/java/ru/driving/agro_market/ui/screens/AuthScreen.kt:196-210 | navigates to "main" exactly on a 2xx answer with a body, after saving the session; otherwise the store is untouched and the error line names the rejection or the network error |
| `AuthScreen.SignUpLikeSignIn` | app/src/main/java/ru/driving/agro_market/ui/screens/AuthScreen.kt:330-345 | sign-up behaves as sign-in except for the rejection line |
| `AuthScreen.MissingBodyIsNetworkError` | app/src/main/java/ru/driving/agro_market/ui/screens/AuthScreen.kt:202-209 | a 2xx answer without a body reads as a network error with message null |
| `AuthScreen.SessionAfterSuccess` | app/src/main/java/ru/driving/agro_market/ui/screens/AuthScreen.kt:91-96 | after success the app starts at "main" and requests carry the new bearer token; a logout then returns to "auth" and keeps the rest |
| `BottomNavigation.Route` | app/src/main/java/ru/driving/agro_market/ui/BottomNavigationBar.kt:67-71 | each tab's route is "home", "cart" or "orders" |
| `BottomNavigation.Title` | app/src/main/java/ru/driving/agro_market/ui/BottomNavigationBar.kt:67-71 | each tab has a non-empty title |
| `BottomNavigation.TabsDistinct` | app/src/main/java/ru/driving/agro_market/ui/BottomNavigationBar.kt:22-70 | three items, each tab once, and distinct routes and titles |
| `BottomNavigation.Click` | app/src/main/java/ru/driving/agro_market/ui/BottomNavigationBar.kt:51-54 | clicking item i selects i and reports that item as the route |
| `BottomNavigation.SelectedFlags` | app/src/main/java/ru/driving/agro_market/ui/BottomNavigationBar.kt:50 | item i is marked exactly when it is the selected index |
| `BottomNavigation.Clicks` | app/src/main/java/ru/driving/agro_market/ui/BottomNavigationBar.kt:51-54 | after clicks the last clicked item is selected |
| `BottomNavigation.ClicksKeepConsistent` | app/src/main/java/ru/driving/agro_market/ui/BottomNavigationBar.kt:28-54 | clicks keep the selected index and the shown route in agreement |
| `BottomNavigation.ExactlyOneSelected` | app/src/main/java/ru/driving/agro_market/ui/BottomNavigationBar.kt:50 | exactly one tab is marked, and it is the tab shown |
| `BottomNavigation.NavigationInvariant` | app/src/main/java/ru/driving/agro_market/ui/BottomNavigationBar.kt:28-54 | from the start, any clicks leave exactly one tab marked, and it is the tab shown |

## Left out

- Compose layout, colours, images and animations: presentation only.
- Network transport: Retrofit, OkHttp, Gson and the endpoint declarations. Each call is an abstract `Outcome` parameter.
- Coroutine scheduling: each launched block is one atomic step, and concurrent launches do not interleave. This leaves out two effects:
  - the cart total recomputed in a row click from a list the launched update may not have changed yet;
  - `filteredProducts` lagging behind the controls until its `LaunchedEffect` runs.
- What happens after an exception escapes a launched block. The model records `Thrown` and stops.
- The initial data load of the main screen (products, categories, cart, orders). It is a fixed sequence of fetches.
- The product page's fetch of its product.
- Navigation-host wiring, apart from the start destination.
- The product-page link from a card.
- Double and Float arithmetic: prices, totals and the average are `real`, with no rounding. The `%.1f` and `%.2f` formatting is not modelled.
- Date parsing and formatting (`createdAt()`, review timestamps). The time of a new review is a parameter.
- SharedPreferences persistence and asynchronous `apply()`: the store is an in-memory map.
- Resource ids: `R.drawable.*` is the enum `Drawable`.
- The product card's own remembered count and favourite mark, and their re-sync when the mirror changes. The card's stepper is modelled from a count that agrees with the mirror.
- The open/closed state of the two drop-down menus.
- `rememberSaveable` for the selected tab against `remember` for the main screen's route. They can disagree after the activity is recreated; the model covers one activity lifetime.
- Session.GetAccessToken, Session.GetUsername, Session.GetIsAdmin, Session.GetUserId: they require a well-typed store, because reading a key stored with another type throws ClassCastException.
- Text.EqualsIgnoreCase: case mapping covers only the ASCII letters and the Cyrillic block U+0400–U+045F, not all of Unicode: Latin-1 and Latin Extended letters such as é/É are not folded.
- Text.StringLessEq: compares Unicode scalar values. Kotlin compares UTF-16 code units, so the two orders differ only for characters outside the Basic Multilingual Plane.
- CartScreen.CartStep: a row click recomputes the total from the list as passed in, whether or not the launched update has run.
- DetailsScreen.AverageRating: a real quotient, without Float rounding.

## Findings

| source | as written | input that shows it | evidently intended | confidence | as-written member | corrected member |
|---|---|---|---|---|---|---|
| app/src/main/java/ru/driving/agro_market/ui/screens/MainScreen.kt:206-217 | `onUpdateCountInCart` writes `products[index]`. `index` is the card's position in the filtered and sorted grid (MainScreen.kt:427-433), not its position in `products` | products [Apples id 1 price 2.0, Beets id 2 price 1.0] under the default price-ascending sort; "В корзину" on Beets (grid index 0) makes `products` [Beets with count 1, Beets], and Apples is gone | update the product with that id, as every other callback does | not executed | `MainScreen.AsWrittenLosesProduct` | `MainScreen.OnUpdateCountInCart` |
| app/src/main/java/ru/driving/agro_market/ui/screens/MainScreen.kt:226-233 | `onUpdateFavorite` writes `products[index]` with the same grid index | the same two products; the heart on Beets makes `products` [Beets marked favourite, Beets], and Apples is gone | update the product with that id | not executed | `MainScreen.AsWrittenFavoriteLosesProduct` | `MainScreen.OnUpdateFavorite` |

=== FILE: api_model.dfy ===
/**
 * The records the storefront exchanges with its REST backend, the order
 * status labels, the product image choice, and the abstract outcome of one
 * call through the API gateway.
 */
module ApiModel {
  import opened Wrappers

  datatype User = User(id: int, username: string)

  /** A catalogue product; `countInCart` is the server's count of it in the
    * user's cart and `favorite` the user's favourite mark. */
  datatype Product = Product(
    id: int,
    name: string,
    description: string,
    price: real,
    stock: int,
    image: string,
    countInCart: int,
    categoryId: int,
    favorite: bool)

  datatype Review = Review(id: int, user: User, rating: int, comment: string, createdAt: string)

  datatype ProductDetails = ProductDetails(product: Product, reviews: seq<Review>)

  datatype OrderStatus = Created | Shipped | Delivered | Cancelled

  /** `OrderStatus.entries`, in declaration order. */
  const AllStatuses: seq<OrderStatus> := [Created, Shipped, Delivered, Cancelled]

  datatype OrderItem = OrderItem(id: int, product: Product, quantity: int, price: real)

  datatype Order = Order(
    id: int,
    user: User,
    totalPrice: real,
    status: OrderStatus,
    createdAt: string,
    address: string,
    phone: string,
    items: seq<OrderItem>)

  datatype Category = Category(id: int, name: string)

  datatype CartEntry = CartEntry(id: int, product: Product, quantity: int)

  /** The body of a successful sign-in or sign-up. */
  datatype JwtResponse = JwtResponse(
    userId: int,
    accessToken: string,
    refreshToken: string,
    isAdmin: bool,
    username: string)

  /** The result of one call through the gateway: a 2xx response and its
    * body, a non-2xx response and its (nullable) error body, or a thrown
    * transport exception and its (nullable) message. */
  datatype Outcome<T> =
    | Success(body: T)
    | HttpError(errorBody: Option<string>)
    | NetworkError(message: Option<string>)

  /** The requests the screens send through the gateway. */
  datatype ApiCall =
    | AddToCart(productId: int, quantity: int)
    | UpdateQuantityCart(productId: int, quantity: int)
    | CreateProductReview(productId: int, rating: int, comment: string)
    | UpdateFavorite(productId: int)
    | CreateOrder(address: string, phone: string)
    | UpdateStatusOrder(orderId: int, status: OrderStatus)
    | GetAllCarts

  /** `OrderStatus.toRussian()`. */
  function ToRussian(s: OrderStatus): (text: string)
    ensures text != []
  {
    match s
    case Created => "Создан"
    case Shipped => "Отправлен"
    case Delivered => "Доставлен"
    case Cancelled => "Отменен"
  }

  /** The status a label stands for; the inverse of `ToRussian`. */
  function StatusOfLabel(text: string): (r: Option<OrderStatus>)
    ensures r.Some? ==> ToRussian(r.value) == text
  {
    if text == "Создан" then Some(Created)
    else if text == "Отправлен" then Some(Shipped)
    else if text == "Доставлен" then Some(Delivered)
    else if text == "Отменен" then Some(Cancelled)
    else None
  }

  /** Every status has a label, and the label gives the status back, so the
    * four labels are distinct. */
  lemma ToRussianInjective(s: OrderStatus, t: OrderStatus)
    ensures StatusOfLabel(ToRussian(s)) == Some(s)
    ensures ToRussian(s) == ToRussian(t) ==> s == t
  {
  }

  /** `OrderStatus.entries` lists each of the four statuses exactly once. */
  lemma AllStatusesComplete(s: OrderStatus)
    ensures s in AllStatuses
    ensures |AllStatuses| == 4
    ensures forall i, j :: 0 <= i < j < |AllStatuses| ==> AllStatuses[i] != AllStatuses[j]
  {
  }

  /** The drawable resources a product image can be. */
  datatype Drawable = Img | Img1 | Img2 | Img3 | Img4

  /** `ProductEntityDto.getImageResource()`. */
  function ImageResource(p: Product): (d: Drawable)
    ensures d == Img <==> p.id !in {15, 9, 16, 5}
    ensures p.id == 15 <==> d == Img1
    ensures p.id == 9 <==> d == Img2
    ensures p.id == 16 <==> d == Img3
    ensures p.id == 5 <==> d == Img4
  {
    match p.id
    case 15 => Img1
    case 9 => Img2
    case 16 => Img3
    case 5 => Img4
    case _ => Img
  }
}

=== FILE: auth_screen.dfy ===
/**
 * The sign-in / sign-up screen (`AuthScreen`, `SignInScreen`,
 * `SignUpScreen`): which form is shown, and what one press of "Войти" or
 * "Зарегистрироваться" does with the server's answer — the session it
 * writes, the error line it shows, and whether it moves on to "main".
 */
module AuthScreen {
  import opened Wrappers
  import opened Text
  import opened ApiModel
  import opened Session
  import MainScreen

  /** Which form the screen shows. */
  datatype AuthView = AuthView(showSignUp: bool)

  const InitialAuthView := AuthView(false)

  predicate SignInVisible(v: AuthView) { !v.showSignUp }

  predicate SignUpVisible(v: AuthView) { v.showSignUp }

  /** "Нет аккаунта? Зарегистрироваться" on the sign-in form. */
  function NavigateToSignUp(v: AuthView): (r: AuthView)
    ensures SignUpVisible(r) && !SignInVisible(r)
  {
    AuthView(true)
  }

  /** "Уже есть аккаунт? Войти" on the sign-up form. */
  function NavigateToSignIn(v: AuthView): (r: AuthView)
    ensures SignInVisible(r) && !SignUpVisible(r)
  {
    AuthView(false)
  }

  /** The screen opens on the sign-in form, exactly one form is visible at
    * any time, and the two links undo each other. */
  lemma ExactlyOneForm(v: AuthView)
    ensures SignInVisible(InitialAuthView)
    ensures SignInVisible(v) != SignUpVisible(v)
    ensures NavigateToSignIn(NavigateToSignUp(v)) == InitialAuthView
    ensures SignUpVisible(v) ==> NavigateToSignUp(NavigateToSignIn(v)) == v
  {
  }

  datatype Form = SignInForm | SignUpForm

  /** The line shown when the server answers with a non-2xx status. */
  function RejectionPrefix(f: Form): (prefix: string)
    ensures f == SignInForm ==> prefix == "Ошибка входа: "
    ensures f == SignUpForm ==> prefix == "Ошибка регистрации: "
  {
    match f
    case SignInForm => "Ошибка входа: "
    case SignUpForm => "Ошибка регистрации: "
  }

  const NetworkErrorPrefix := "Ошибка сети: "

  /** `onSignInSuccess` / `onSignUpSuccess`: token, name, admin flag and user
    * id are written, in that order; the refresh token is not. */
  function SaveSession(store: Store, j: JwtResponse): (r: Store)
    requires WellTyped(store)
    ensures WellTyped(r)
    ensures GetAccessToken(r) == Some(j.accessToken)
    ensures GetUsername(r) == j.username
    ensures GetIsAdmin(r) == j.isAdmin
    ensures GetUserId(r) == j.userId
    ensures forall k :: k in r <==> k in store || k in {AccessTokenKey, UsernameKey, IsAdminKey, UserIdKey}
    ensures forall k :: k in store && k !in {AccessTokenKey, UsernameKey, IsAdminKey, UserIdKey} ==> r[k] == store[k]
  {
    var s1 := SaveAccessToken(store, Some(j.accessToken));
    var s2 := SaveUsername(s1, j.username);
    var s3 := SaveIsAdmin(s2, j.isAdmin);
    SaveUserId(s3, j.userId)
  }

  /** What one press leaves behind: the store, the form's error line, and
    * the route navigated to, if any. */
  datatype AuthResult = AuthResult(store: Store, error: Option<string>, navigation: Option<string>)

  /** One press of the form's button, given the error line shown before and
    * the server's answer. A 2xx answer whose body is missing fails at
    * `body()!!` with a message-less exception, which the form's catch turns
    * into the network error line with "null" in it. */
  function Submit(f: Form, store: Store, error: Option<string>, outcome: Outcome<Option<JwtResponse>>): (r: AuthResult)
    requires WellTyped(store)
    ensures WellTyped(r.store)
    ensures r.navigation.Some? <==> outcome.Success? && outcome.body.Some?
    ensures r.navigation.Some? ==>
      && r.navigation == Some("main")
      && r.store == SaveSession(store, outcome.body.value)
      && r.error == error
    ensures r.navigation.None? ==> r.store == store && r.error.Some?
    ensures outcome.HttpError? ==> r.error == Some(RejectionPrefix(f) + Render(outcome.errorBody))
    ensures outcome.NetworkError? ==> r.error == Some(NetworkErrorPrefix + Render(outcome.message))
    ensures outcome == Success(None) ==> r.error == Some(NetworkErrorPrefix + "null")
  {
    match outcome
    case Success(Some(j)) => AuthResult(SaveSession(store, j), error, Some("main"))
    case Success(None) => AuthResult(store, Some(NetworkErrorPrefix + Render(None)), None)
    case HttpError(body) => AuthResult(store, Some(RejectionPrefix(f) + Render(body)), None)
    case NetworkError(message) => AuthResult(store, Some(NetworkErrorPrefix + Render(message)), None)
  }

  /** Sign-in and sign-up differ only in the rejection line: a success has
    * the same session effect and navigation, and a thrown error (or a
    * missing body) the same network error line. */
  lemma SignUpLikeSignIn(store: Store, error: Option<string>, outcome: Outcome<Option<JwtResponse>>)
    requires WellTyped(store)
    ensures !outcome.HttpError? ==>
      Submit(SignUpForm, store, error, outcome) == Submit(SignInForm, store, error, outcome)
    ensures outcome.HttpError? ==>
      var signUp := Submit(SignUpForm, store, error, outcome);
      var signIn := Submit(SignInForm, store, error, outcome);
      signUp.store == signIn.store == store && signUp.navigation == signIn.navigation == None
      && signUp.error != signIn.error
  {
    if outcome.HttpError? {
      var signUp := Submit(SignUpForm, store, error, outcome).error.value;
      var signIn := Submit(SignInForm, store, error, outcome).error.value;
      assert signUp[7] != signIn[7];
    }
  }

  /** A missing body reads exactly like a thrown error without a message. */
  lemma MissingBodyIsNetworkError(f: Form, store: Store, error: Option<string>)
    requires WellTyped(store)
    ensures Submit(f, store, error, Success(None)) == Submit(f, store, error, NetworkError(None))
  {
  }

  /** After a successful press the app would start at "main" and every
    * request carries the new bearer token; a later logout sends it back to
    * "auth" while the name, admin flag and user id stay stored. */
  lemma SessionAfterSuccess(f: Form, store: Store, error: Option<string>, j: JwtResponse, headers: seq<Header>)
    requires WellTyped(store)
    ensures var r := Submit(f, store, error, Success(Some(j)));
      && StartDestination(r.store) == "main"
      && Intercept(headers, r.store) == headers + [Header("Authorization", "Bearer " + j.accessToken)]
      && var (out, route) := MainScreen.OnLogout(r.store);
         route == "auth" && StartDestination(out) == "auth"
         && GetUsername(out) == j.username && GetIsAdmin(out) == j.isAdmin && GetUserId(out) == j.userId
  {
  }
}

=== FILE: bottom_navigation.dfy ===
/**
 * The bottom bar (`BottomNavigationBar`, `BottomNavItem`): three tabs, a
 * selected index, and the route the main screen shows, which the bar's
 * click handler reports.
 */
module BottomNavigation {
  datatype Tab = Home | Cart | Orders

  /** The bar's items, in display order. */
  const Items: seq<Tab> := [Home, Cart, Orders]

  function Route(t: Tab): (route: string)
    ensures route in {"home", "cart", "orders"}
  {
    match t
    case Home => "home"
    case Cart => "cart"
    case Orders => "orders"
  }

  function Title(t: Tab): (title: string)
    ensures title != []
  {
    match t
    case Home => "Главная"
    case Cart => "Корзина"
    case Orders => "Заказы"
  }

  /** Each tab sits once in the bar, and the routes tell the tabs apart. */
  lemma TabsDistinct(t: Tab, u: Tab)
    ensures |Items| == 3 && t in Items
    ensures forall i, j :: 0 <= i < j < |Items| ==> Items[i] != Items[j]
    ensures Route(t) == Route(u) ==> t == u
    ensures Title(t) == Title(u) ==> t == u
  {
  }

  /** The bar's selected index together with the main screen's route. */
  datatype NavState = NavState(selected: int, route: Tab)

  /** Both start on the first tab. */
  const InitialNav := NavState(0, Home)

  /** A click on item `index`: the bar selects it and reports that item,
    * which the main screen takes as its route. */
  function Click(s: NavState, index: int): (r: NavState)
    requires 0 <= index < |Items|
    ensures r.selected == index && r.route == Items[index]
  {
    NavState(index, Items[index])
  }

  /** Per item, whether the bar marks it selected. */
  function SelectedFlags(s: NavState): (flags: seq<bool>)
    ensures |flags| == |Items|
    ensures forall i :: 0 <= i < |Items| ==> (flags[i] <==> i == s.selected)
  {
    seq(|Items|, i => i == s.selected)
  }

  function CountTrue(flags: seq<bool>): nat {
    if flags == [] then 0 else (if flags[0] then 1 else 0) + CountTrue(flags[1..])
  }

  /** The bar and the route agree: the selected index is a valid item and
    * the route is that item. */
  predicate Consistent(s: NavState) {
    0 <= s.selected < |Items| && s.route == Items[s.selected]
  }

  /** Any run of clicks from the start, each on one of the three items. */
  function Clicks(s: NavState, indices: seq<int>): (r: NavState)
    requires forall k :: 0 <= k < |indices| ==> 0 <= indices[k] < |Items|
    ensures indices != [] ==> r.selected == indices[|indices| - 1]
    decreases |indices|
  {
    if indices == [] then s else Clicks(Click(s, indices[0]), indices[1..])
  }

  /** After any run of clicks the bar and the route agree. */
  lemma {:induction false} ClicksKeepConsistent(s: NavState, indices: seq<int>)
    requires Consistent(s)
    requires forall k :: 0 <= k < |indices| ==> 0 <= indices[k] < |Items|
    ensures Consistent(Clicks(s, indices))
    decreases |indices|
  {
    if indices != [] {
      ClicksKeepConsistent(Click(s, indices[0]), indices[1..]);
    }
  }

  /** In a consistent state exactly one tab is marked selected, and it is
    * the tab the main screen shows. */
  lemma ExactlyOneSelected(s: NavState)
    requires Consistent(s)
    ensures CountTrue(SelectedFlags(s)) == 1
    ensures forall i :: 0 <= i < |Items| ==> (SelectedFlags(s)[i] <==> Items[i] == s.route)
  {
    var f := SelectedFlags(s);
    assert f[1..][0] == f[1] && f[1..][1..] == f[2..];
    assert f[2..][0] == f[2] && f[2..][1..] == [];
    assert CountTrue(f[2..]) == if f[2] then 1 else 0;
    assert CountTrue(f[1..]) == (if f[1] then 1 else 0) + CountTrue(f[2..]);
  }

  /** From the start, any run of clicks leaves exactly one tab marked, the
    * one shown. */
  lemma NavigationInvariant(indices: seq<int>)
    requires forall k :: 0 <= k < |indices| ==> 0 <= indices[k] < |Items|
    ensures Consistent(Clicks(InitialNav, indices))
    ensures CountTrue(SelectedFlags(Clicks(InitialNav, indices))) == 1
  {
    ClicksKeepConsistent(InitialNav, indices);
    ExactlyOneSelected(Clicks(InitialNav, indices));
  }
}

=== FILE: cart_screen.dfy ===
/**
 * The cart tab (`CartScreen`, `CartItem`, `CheckoutDialog`): the row
 * buttons and the requests they raise, the displayed total, the checkout
 * button, and the checkout dialog's guard.
 */
module CartScreen {
  import opened Wrappers
  import opened Text
  import opened ApiModel
  import MainScreen

  datatype CartButton = Minus | Plus | Delete

  /** What a cart row asks of the screen; both name the PRODUCT id, not the
    * cart entry's own id. */
  datatype CartRequest = SetQuantity(productId: int, quantity: int) | RemoveItem(productId: int)

  /** A click on a row button: minus asks for one less while the quantity is
    * above 1, plus for one more while it is below stock, delete for removal. */
  function CartItemClick(e: CartEntry, b: CartButton): (r: Option<CartRequest>)
    ensures r.Some? ==> r.value.productId == e.product.id
    ensures b == Minus ==> (r.Some? <==> e.quantity > 1)
    ensures b == Minus && r.Some? ==> r.value == SetQuantity(e.product.id, e.quantity - 1) && r.value.quantity >= 1
    ensures b == Plus ==> (r.Some? <==> e.quantity < e.product.stock)
    ensures b == Plus && r.Some? ==> r.value == SetQuantity(e.product.id, e.quantity + 1) && r.value.quantity <= e.product.stock
    ensures b == Delete ==> r == Some(RemoveItem(e.product.id))
  {
    match b
    case Minus => if e.quantity > 1 then Some(SetQuantity(e.product.id, e.quantity - 1)) else None
    case Plus => if e.quantity < e.product.stock then Some(SetQuantity(e.product.id, e.quantity + 1)) else None
    case Delete => Some(RemoveItem(e.product.id))
  }

  /** The cart the backend keeps: one entry per product, each quantity
    * between 1 and the product's stock. */
  ghost predicate CartWellFormed(cart: seq<CartEntry>) {
    && (forall i :: 0 <= i < |cart| ==> 1 <= cart[i].quantity <= cart[i].product.stock)
    && (forall i, j :: 0 <= i < j < |cart| ==> cart[i].product.id != cart[j].product.id)
  }

  /** The main screen's handling of a row request: the quantity is sent
    * (0 for a removal); unless the call throws, the product's `countInCart`
    * takes that quantity, the orders stay, and a new quantity is written
    * into the product's entries, or the product's entries are dropped while
    * every other entry stays as often as it was there. */
  function Apply(m: MainScreen.Mirror, req: CartRequest, response: Outcome<()>): (s: MainScreen.Step)
    ensures s.sent == [UpdateQuantityCart(req.productId, if req.SetQuantity? then req.quantity else 0)]
    ensures response.NetworkError? ==> s.mirror == m
    ensures !response.NetworkError? ==>
      && MainScreen.CountSet(m.products, s.mirror.products, req.productId, if req.SetQuantity? then req.quantity else 0)
      && s.mirror.orders == m.orders
    ensures req.SetQuantity? && !response.NetworkError? ==>
      MainScreen.CartQuantitySet(m.cart, s.mirror.cart, req.productId, req.quantity)
    ensures req.RemoveItem? && !response.NetworkError? ==>
      && (forall i :: 0 <= i < |s.mirror.cart| ==> s.mirror.cart[i].product.id != req.productId)
      && (forall e: CartEntry :: e.product.id != req.productId ==> multiset(s.mirror.cart)[e] == multiset(m.cart)[e])
  {
    match req
    case SetQuantity(id, q) => MainScreen.OnUpdateQuantity(m, id, q, response)
    case RemoveItem(id) => MainScreen.OnRemoveItem(m, id, response)
  }

  /** Row clicks keep the cart well formed: the stepper never leaves
    * [1, stock], and only the clicked row's entry changes. */
  lemma {:induction false} RowClickKeepsCartWellFormed(m: MainScreen.Mirror, i: int, b: CartButton, response: Outcome<()>)
    requires CartWellFormed(m.cart) && 0 <= i < |m.cart|
    requires CartItemClick(m.cart[i], b).Some?
    ensures CartWellFormed(Apply(m, CartItemClick(m.cart[i], b).value, response).mirror.cart)
  {
    var req := CartItemClick(m.cart[i], b).value;
    var after := Apply(m, req, response).mirror.cart;
    if req.SetQuantity? && !response.NetworkError? {
      assert MainScreen.CartQuantitySet(m.cart, after, req.productId, req.quantity);
      QuantitySetKeepsWellFormed(m.cart, after, i, req.quantity);
    } else if req.RemoveItem? && !response.NetworkError? {
      RemovalKeepsWellFormed(m.cart, req.productId);
    }
  }

  /** Writing a quantity within [1, stock] into row `i` keeps the cart well
    * formed. */
  lemma {:induction false} QuantitySetKeepsWellFormed(cart: seq<CartEntry>, after: seq<CartEntry>, i: int, q: int)
    requires CartWellFormed(cart) && 0 <= i < |cart|
    requires 1 <= q <= cart[i].product.stock
    requires MainScreen.CartQuantitySet(cart, after, cart[i].product.id, q)
    ensures CartWellFormed(after)
  {
    var id := cart[i].product.id;
    forall j | 0 <= j < |after| ensures 1 <= after[j].quantity <= after[j].product.stock {
      if j != i {
        assert cart[j].product.id != id;
      }
    }
    forall j, k | 0 <= j < k < |after| ensures after[j].product.id != after[k].product.id {
      assert after[j].product == cart[j].product && after[k].product == cart[k].product;
    }
  }

  /** Removing a product's entries keeps the cart well formed. */
  lemma {:induction false} RemovalKeepsWellFormed(cart: seq<CartEntry>, id: int)
    requires CartWellFormed(cart)
    ensures CartWellFormed(MainScreen.RemoveProduct(cart, id))
  {
    var after := MainScreen.RemoveProduct(cart, id);
    MainScreen.RemoveProductMembers(cart, id);
    forall j | 0 <= j < |after| ensures 1 <= after[j].quantity <= after[j].product.stock {
      assert after[j] in after;
      var i :| 0 <= i < |cart| && cart[i] == after[j];
    }
    forall j, k | 0 <= j < k < |after| ensures after[j].product.id != after[k].product.id {
      RemovalKeepsUniqueIds(cart, id, j, k);
    }
  }

  /** Removal from a cart with unique product ids leaves them unique. */
  lemma {:induction false} RemovalKeepsUniqueIds(cart: seq<CartEntry>, id: int, j: int, k: int)
    requires forall a, b :: 0 <= a < b < |cart| ==> cart[a].product.id != cart[b].product.id
    requires 0 <= j < k < |MainScreen.RemoveProduct(cart, id)|
    ensures MainScreen.RemoveProduct(cart, id)[j].product.id != MainScreen.RemoveProduct(cart, id)[k].product.id
  {
    var r := MainScreen.RemoveProduct(cart, id);
    var rest := MainScreen.RemoveProduct(cart[1..], id);
    assert forall a, b :: 0 <= a < b < |cart[1..]| ==> cart[1..][a].product.id != cart[1..][b].product.id by {
      forall a, b | 0 <= a < b < |cart[1..]| ensures cart[1..][a].product.id != cart[1..][b].product.id {
        assert cart[1..][a] == cart[a + 1] && cart[1..][b] == cart[b + 1];
      }
    }
    if cart[0].product.id == id {
      assert r == rest;
      RemovalKeepsUniqueIds(cart[1..], id, j, k);
    } else {
      assert r == [cart[0]] + rest;
      if j == 0 {
        assert r[k] == rest[k - 1];
        MainScreen.RemoveProductMembers(cart[1..], id);
        assert rest[k - 1] in rest;
        var a :| 0 <= a < |cart[1..]| && cart[1..][a] == rest[k - 1];
        assert cart[a + 1] == rest[k - 1];
      } else {
        assert r[j] == rest[j - 1] && r[k] == rest[k - 1];
        RemovalKeepsUniqueIds(cart[1..], id, j - 1, k - 1);
      }
    }
  }

  /** The checkout button is enabled exactly when the cart has entries. */
  function CheckoutEnabled(cart: seq<CartEntry>): (enabled: bool)
    ensures enabled <==> cart != []
  {
    |cart| > 0
  }

  /** The dialog's "confirm": it hands on the address and phone only when
    * neither is blank. */
  function ConfirmCheckout(address: string, phone: string): (r: Option<(string, string)>)
    ensures r.Some? <==> !IsBlank(address) && !IsBlank(phone)
    ensures r.Some? ==> r.value == (address, phone)
  {
    if !IsBlank(address) && !IsBlank(phone) then Some((address, phone)) else None
  }

  /** `sumOf { it.product.price * it.quantity }` over the cart. */
  function CartTotal(cart: seq<CartEntry>): (total: real)
    ensures cart == [] ==> total == 0.0
  {
    if cart == [] then 0.0 else cart[0].product.price * cart[0].quantity as real + CartTotal(cart[1..])
  }

  /** The total adds up over the parts of the cart. */
  lemma {:induction false} CartTotalAppend(a: seq<CartEntry>, b: seq<CartEntry>)
    ensures CartTotal(a + b) == CartTotal(a) + CartTotal(b)
  {
    if a == [] {
      assert a + b == b;
    } else {
      assert (a + b)[0] == a[0] && (a + b)[1..] == a[1..] + b;
      CartTotalAppend(a[1..], b);
    }
  }

  /** With non-negative prices and quantities the total is non-negative. */
  lemma {:induction false} CartTotalNonNegative(cart: seq<CartEntry>)
    requires forall i :: 0 <= i < |cart| ==> cart[i].product.price >= 0.0 && cart[i].quantity >= 0
    ensures CartTotal(cart) >= 0.0
  {
    if cart != [] {
      CartTotalNonNegative(cart[1..]);
    }
  }

  /** The cart tab's own state: the displayed total and whether the
    * checkout dialog is open. */
  datatype CartView = CartView(total: real, dialogOpen: bool)

  /** On entering the tab the total is computed from the cart and the dialog
    * is closed. */
  function EnterCart(cart: seq<CartEntry>): (v: CartView)
    ensures !v.dialogOpen
    ensures v.total == CartTotal(cart)
    ensures cart == [] ==> v.total == 0.0
  {
    CartView(CartTotal(cart), false)
  }

  datatype CartEvent =
    | RowClicked                         // a row button: the total is recomputed from the list as it stands
    | ClickCheckout                      // "Оформить заказ"
    | Dismiss                            // "Отмена" or a tap outside the dialog
    | Confirm(address: string, phone: string)

  /** Events that can happen in view `v`: "confirm" needs the open dialog. */
  predicate Possible(v: CartView, e: CartEvent) {
    e.Confirm? ==> v.dialogOpen
  }

  /** The tab's reaction to an event: the new view and the checkout request
    * (address, phone) it passes to the main screen, if any. */
  function CartStep(v: CartView, cart: seq<CartEntry>, e: CartEvent): (r: (CartView, Option<(string, string)>))
    requires Possible(v, e)
    ensures e.RowClicked? ==> r == (v.(total := CartTotal(cart)), None)
    ensures e.ClickCheckout? ==> r == (v.(dialogOpen := v.dialogOpen || cart != []), None)
    ensures e.Dismiss? ==> r == (v.(dialogOpen := false), None)
    ensures e.Confirm? ==> (r.1.Some? <==> !IsBlank(e.address) && !IsBlank(e.phone))
    ensures e.Confirm? && r.1.Some? ==> r == (CartView(0.0, false), Some((e.address, e.phone)))
    ensures e.Confirm? && r.1.None? ==> r.0 == v
  {
    match e
    case RowClicked => (v.(total := CartTotal(cart)), None)
    case ClickCheckout => (if CheckoutEnabled(cart) then v.(dialogOpen := true) else v, None)
    case Dismiss => (v.(dialogOpen := false), None)
    case Confirm(address, phone) =>
      match ConfirmCheckout(address, phone)
      case Some(request) => (CartView(0.0, false), Some(request))
      case None => (v, None)
  }

  /** A confirmed checkout that the server answers with an order leaves an
    * empty cart, whose total is the 0 the tab resets its display to. */
  lemma ConfirmedCheckoutAgrees(v: CartView, m: MainScreen.Mirror, address: string, phone: string, order: Order)
    requires v.dialogOpen
    requires !IsBlank(address) && !IsBlank(phone)
    ensures var (v', request) := CartStep(v, m.cart, Confirm(address, phone));
      && request == Some((address, phone))
      && var s := MainScreen.OnCheckout(m, address, phone, Success(Some(order)));
         CartTotal(s.mirror.cart) == v'.total == 0.0 && !CheckoutEnabled(s.mirror.cart)
  {
  }
}

=== FILE: details_screen.dfy ===
/**
 * The product page (`ProductDetailsScreen`, `AddReviewDialog`, `RatingBar`,
 * `RatingBarEditable`): who may review, what adding a review does to the
 * list, the review dialog's guard, the star rows, the page's own cart
 * stepper with the requests it sends, and the average rating.
 */
module DetailsScreen {
  import opened Wrappers
  import opened Text
  import opened ApiModel

  // ----- Reviews -----

  /** Whether the user with id `userId` has a review among `reviews`. */
  predicate HasReviewBy(reviews: seq<Review>, userId: int) {
    exists i :: 0 <= i < |reviews| && reviews[i].user.id == userId
  }

  /** The "add review" button after loading: shown unless some review is by
    * the stored user id. */
  function CanReview(reviews: seq<Review>, userId: int): (visible: bool)
    ensures visible <==> forall i :: 0 <= i < |reviews| ==> reviews[i].user.id != userId
  {
    if reviews == [] then true
    else reviews[0].user.id != userId && CanReview(reviews[1..], userId)
  }

  /** `CanReview` is the negation of "has a review by this user". */
  lemma CanReviewIffNoReview(reviews: seq<Review>, userId: int)
    ensures CanReview(reviews, userId) <==> !HasReviewBy(reviews, userId)
  {
  }

  /** The page's review state: the loaded list and the button's visibility. */
  datatype ReviewState = ReviewState(reviews: seq<Review>, canReview: bool)

  /** The state right after the page's one-time load. */
  function LoadReviews(details: ProductDetails, userId: int): (s: ReviewState)
    ensures s.reviews == details.reviews
    ensures s.canReview <==> !HasReviewBy(details.reviews, userId)
  {
    CanReviewIffNoReview(details.reviews, userId);
    ReviewState(details.reviews, CanReview(details.reviews, userId))
  }

  /** `onAddReview`: the review request is sent first; whatever the server
    * answers, a review with id 0, user (0, stored username), the given
    * rating and comment and the time `now` is appended and the button is
    * hidden. Only a thrown transport error skips both. */
  function AddReview(s: ReviewState, productId: int, rating: int, comment: string,
                     username: string, now: string, response: Outcome<()>): (r: (ReviewState, ApiCall))
    ensures r.1 == CreateProductReview(productId, rating, comment)
    ensures response.NetworkError? ==> r.0 == s
    ensures !response.NetworkError? ==>
      && r.0.reviews == s.reviews + [Review(0, User(0, username), rating, comment, now)]
      && !r.0.canReview
  {
    var call := CreateProductReview(productId, rating, comment);
    if response.NetworkError? then (s, call)
    else (ReviewState(s.reviews + [Review(0, User(0, username), rating, comment, now)], false), call)
  }

  /** Adding a review keeps the earlier reviews in place and puts the new one
    * last; the added review carries user id 0, so it counts as "by the user"
    * only when the stored id is itself 0. */
  lemma AddReviewAppends(s: ReviewState, productId: int, rating: int, comment: string,
                         username: string, now: string, userId: int)
    ensures var r := AddReview(s, productId, rating, comment, username, now, Success(())).0;
      && |r.reviews| == |s.reviews| + 1
      && r.reviews[..|s.reviews|] == s.reviews
      && r.reviews[|s.reviews|].rating == rating && r.reviews[|s.reviews|].comment == comment
      && r.reviews[|s.reviews|].id == 0 && r.reviews[|s.reviews|].user.username == username
      && (HasReviewBy(r.reviews, userId) <==> HasReviewBy(s.reviews, userId) || userId == 0)
  {
    var r := AddReview(s, productId, rating, comment, username, now, Success(())).0;
    assert r.reviews[|s.reviews|].user.id == 0;
    assert forall i :: 0 <= i < |s.reviews| ==> r.reviews[i] == s.reviews[i];
  }

  // ----- Review dialog -----

  /** The dialog's own state: the chosen rating and the comment typed. */
  datatype ReviewDialog = ReviewDialog(rating: int, comment: string)

  const InitialReviewDialog := ReviewDialog(0, "")

  /** A click on star `index` (0 to 4) of the editable row. */
  function ClickStar(d: ReviewDialog, index: int): (r: ReviewDialog)
    requires 0 <= index < 5
    ensures 1 <= r.rating <= 5 && r.comment == d.comment
    ensures r.rating - 1 == index
  {
    d.(rating := index + 1)
  }

  /** The "Добавить" button: it hands on (rating, comment) only when a star
    * was chosen and the comment is not blank. */
  function SubmitReview(d: ReviewDialog): (r: Option<(int, string)>)
    ensures r.Some? <==> d.rating > 0 && !IsBlank(d.comment)
    ensures r.Some? ==> r.value == (d.rating, d.comment)
  {
    if d.rating > 0 && !IsBlank(d.comment) then Some((d.rating, d.comment)) else None
  }

  /** A dialog reached from the initial one by star clicks and typing: the
    * rating is 0 (no star yet) or in 1..5, so a submitted rating is in
    * 1..5. */
  lemma SubmittedRatingInRange(clicks: seq<int>, comment: string)
    requires forall k :: 0 <= k < |clicks| ==> 0 <= clicks[k] < 5
    ensures var d := ClickStars(InitialReviewDialog, clicks).(comment := comment);
      SubmitReview(d).Some? ==> 1 <= SubmitReview(d).value.0 <= 5
  {
    ClickStarsRange(InitialReviewDialog, clicks);
  }

  /** A run of star clicks. */
  function ClickStars(d: ReviewDialog, clicks: seq<int>): (r: ReviewDialog)
    requires forall k :: 0 <= k < |clicks| ==> 0 <= clicks[k] < 5
    ensures r.comment == d.comment
    ensures clicks != [] ==> r.rating == clicks[|clicks| - 1] + 1
    ensures clicks == [] ==> r == d
    decreases |clicks|
  {
    if clicks == [] then d
    else ClickStars(ClickStar(d, clicks[0]), clicks[1..])
  }

  lemma {:induction false} ClickStarsRange(d: ReviewDialog, clicks: seq<int>)
    requires 0 <= d.rating <= 5
    requires forall k :: 0 <= k < |clicks| ==> 0 <= clicks[k] < 5
    ensures 0 <= ClickStars(d, clicks).rating <= 5
    decreases |clicks|
  {
    if clicks != [] {
      ClickStarsRange(ClickStar(d, clicks[0]), clicks[1..]);
    }
  }

  /** The five stars of a `RatingBar`: star `i` is filled exactly when
    * `i < rating`. */
  function RatingBar(rating: int): (stars: seq<bool>)
    ensures |stars| == 5
    ensures forall i :: 0 <= i < 5 ==> (stars[i] <==> i < rating)
  {
    seq(5, i => i < rating)
  }

  /** The number of filled stars in a row. */
  function Filled(stars: seq<bool>): nat {
    if stars == [] then 0 else (if stars[0] then 1 else 0) + Filled(stars[1..])
  }

  /** `k` clamped to 0..n. */
  function Clamp(k: int, n: nat): (c: nat)
    ensures c <= n
  {
    if k < 0 then 0 else if k > n then n else k
  }

  /** A row whose first `k` stars are the filled ones has `k` filled stars,
    * clamped to the row's length. */
  lemma {:induction false} FilledPrefix(stars: seq<bool>, k: int)
    requires forall i :: 0 <= i < |stars| ==> (stars[i] <==> i < k)
    ensures Filled(stars) == Clamp(k, |stars|)
  {
    if stars != [] {
      assert forall i :: 0 <= i < |stars[1..]| ==> (stars[1..][i] <==> i < k - 1) by {
        forall i | 0 <= i < |stars[1..]| ensures stars[1..][i] <==> i < k - 1 {
          assert stars[1..][i] == stars[i + 1];
        }
      }
      FilledPrefix(stars[1..], k - 1);
    }
  }

  /** A rating bar shows the rating clamped to 0..5 as filled stars. */
  lemma RatingBarFilled(rating: int)
    ensures Filled(RatingBar(rating)) == Clamp(rating, 5)
  {
    FilledPrefix(RatingBar(rating), rating);
  }

  // ----- Average rating -----

  /** The sum of the ratings; ratings of 1 to 5 stars sum to between one
    * and five times their number. */
  function SumRatings(reviews: seq<Review>): (sum: int)
    ensures (forall i :: 0 <= i < |reviews| ==> 1 <= reviews[i].rating <= 5) ==>
      |reviews| <= sum <= 5 * |reviews|
  {
    if reviews == [] then 0 else reviews[0].rating + SumRatings(reviews[1..])
  }

  /** `reviews.map { it.rating }.average()`, or 0 for no reviews. */
  function AverageRating(reviews: seq<Review>): (avg: real)
    ensures reviews == [] ==> avg == 0.0
    ensures reviews != [] ==> avg * |reviews| as real == SumRatings(reviews) as real
  {
    if reviews == [] then 0.0 else SumRatings(reviews) as real / |reviews| as real
  }

  /** A quotient `avg` with `avg * n == sum` and `n <= sum <= 5n` lies in
    * 1..5. */
  lemma QuotientBounds(avg: real, n: real, sum: real)
    requires n > 0.0 && avg * n == sum
    requires n <= sum <= 5.0 * n
    ensures 1.0 <= avg <= 5.0
  {
  }

  /** With every rating in 1..5 and at least one review, the average lies
    * in 1..5. */
  lemma AverageInRange(reviews: seq<Review>)
    requires reviews != []
    requires forall i :: 0 <= i < |reviews| ==> 1 <= reviews[i].rating <= 5
    ensures 1.0 <= AverageRating(reviews) <= 5.0
  {
    QuotientBounds(AverageRating(reviews), |reviews| as real, SumRatings(reviews) as real);
  }

  /** `Float.toInt()` for the average's star row: truncation toward zero. */
  function TruncateToInt(x: real): (n: int)
    ensures x >= 0.0 ==> n as real <= x < n as real + 1.0
    ensures x < 0.0 ==> n as real - 1.0 < x <= n as real
  {
    if x >= 0.0 then x.Floor else -((-x).Floor)
  }

  /** The average's star row: with ratings in 1..5 it fills between one and
    * five stars, and none with no reviews. */
  lemma AverageStars(reviews: seq<Review>)
    requires forall i :: 0 <= i < |reviews| ==> 1 <= reviews[i].rating <= 5
    ensures reviews == [] ==> Filled(RatingBar(TruncateToInt(AverageRating(reviews)))) == 0
    ensures reviews != [] ==> 1 <= Filled(RatingBar(TruncateToInt(AverageRating(reviews)))) <= 5
  {
    var n := TruncateToInt(AverageRating(reviews));
    if reviews != [] {
      AverageInRange(reviews);
      assert 1 <= n <= 5;
    }
    RatingBarFilled(n);
  }

  // ----- The page's cart stepper and favourite toggle -----

  /** The page's own copy of the cart count and the favourite mark,
    * initialised from the loaded product. */
  datatype DetailState = DetailState(count: int, favorite: bool)

  function EnterDetails(p: Product): (s: DetailState)
    ensures s.count == p.countInCart && s.favorite == p.favorite
  {
    DetailState(p.countInCart, p.favorite)
  }

  datatype DetailButton = Decrease | Increase | AddToCartButton | FavoriteButton

  /** The stepper's minus and plus show while the count is positive; the
    * "В корзину" button shows otherwise; the favourite button always. */
  predicate DetailVisible(s: DetailState, b: DetailButton) {
    match b
    case Decrease => s.count > 0
    case Increase => s.count > 0
    case AddToCartButton => s.count <= 0
    case FavoriteButton => true
  }

  /** What `onAddToCart(product, isNew)` sends. */
  function CartCall(productId: int, countInCart: int, isNew: bool): (call: ApiCall)
    ensures isNew ==> call == AddToCart(productId, 1)
    ensures !isNew ==> call == UpdateQuantityCart(productId, countInCart)
  {
    if isNew then AddToCart(productId, 1) else UpdateQuantityCart(productId, countInCart)
  }

  /** A click on a visible button: the new state and the request sent. Minus
    * and plus send the (possibly unchanged) count with isNew false, "add"
    * sets the count to 1 and sends isNew true, and the heart flips the mark
    * and sends a favourite toggle. */
  function DetailClick(p: Product, s: DetailState, b: DetailButton): (r: (DetailState, ApiCall))
    requires DetailVisible(s, b)
    ensures b == Decrease ==> r.0.count == s.count - 1 && r.1 == UpdateQuantityCart(p.id, s.count - 1)
    ensures b == Increase ==> r.0.count == (if s.count < p.stock then s.count + 1 else s.count)
    ensures b == Increase ==> r.1 == UpdateQuantityCart(p.id, r.0.count)
    ensures b == AddToCartButton ==> r.0.count == 1 && r.1 == AddToCart(p.id, 1)
    ensures b == FavoriteButton ==> r.0 == s.(favorite := !s.favorite) && r.1 == UpdateFavorite(p.id)
    ensures b != FavoriteButton ==> r.0.favorite == s.favorite
  {
    match b
    case Decrease =>
      var c := if s.count > 0 then s.count - 1 else s.count;
      (s.(count := c), CartCall(p.id, c, false))
    case Increase =>
      var c := if s.count < p.stock then s.count + 1 else s.count;
      (s.(count := c), CartCall(p.id, c, false))
    case AddToCartButton =>
      (s.(count := 1), CartCall(p.id, 1, true))
    case FavoriteButton =>
      (s.(favorite := !s.favorite), UpdateFavorite(p.id))
  }

  /** The stepper keeps a count that started in 0..stock inside 0..stock,
    * except that "add" ignores the stock: on a product with stock 0 it
    * still sets the count to 1. A minus from 1 brings the "add" button
    * back. */
  lemma DetailCountInRange(p: Product, s: DetailState, b: DetailButton)
    requires DetailVisible(s, b)
    requires 0 <= s.count <= p.stock
    ensures b != AddToCartButton || 1 <= p.stock ==> 0 <= DetailClick(p, s, b).0.count <= p.stock
    ensures b == AddToCartButton && p.stock == 0 ==> DetailClick(p, s, b).0.count == 1 > p.stock
    ensures b == Decrease && s.count == 1 ==> DetailVisible(DetailClick(p, s, b).0, AddToCartButton)
  {
  }
}

=== FILE: main_screen.dfy ===
/**
 * The main screen's local mirror of server state (`products`, `cartItems`,
 * `orders`) and the callbacks that update it after a network call, the
 * product card's quantity stepper (`ProductItem`), and the logout action.
 *
 * Each callback runs inside `scope.launch` and is modelled as one atomic
 * step. A Retrofit call that fails in transport throws; nothing in the
 * launched block catches it, so the rest of the block is skipped and the
 * step ends `Thrown`. A non-2xx answer does not throw, so the local update
 * goes ahead whatever the server answered.
 */
module MainScreen {
  import opened Wrappers
  import opened ApiModel
  import opened Session
  import ProductGrid

  /** The three mirrored lists. */
  datatype Mirror = Mirror(products: seq<Product>, cart: seq<CartEntry>, orders: seq<Order>)

  /** Whether the launched block ran to its end or an exception escaped it. */
  datatype Completion = Finished | Thrown(message: Option<string>)

  /** The mirror after a callback, the calls it sent, and how it ended. */
  datatype Step = Step(mirror: Mirror, sent: seq<ApiCall>, completion: Completion)

  // ---------------------------------------------------------------------
  // "Update matching, keep the rest" relations and the list updates
  // ---------------------------------------------------------------------

  /** `after` is `before` with `quantity` written into every entry of product `id`. */
  ghost predicate CartQuantitySet(before: seq<CartEntry>, after: seq<CartEntry>, id: int, quantity: int) {
    && |after| == |before|
    && forall i :: 0 <= i < |before| ==>
         after[i] == if before[i].product.id == id then before[i].(quantity := quantity) else before[i]
  }

  /** `after` is `before` with `count` written into every product with that id. */
  ghost predicate CountSet(before: seq<Product>, after: seq<Product>, id: int, count: int) {
    && |after| == |before|
    && forall i :: 0 <= i < |before| ==>
         after[i] == if before[i].id == id then before[i].(countInCart := count) else before[i]
  }

  /** `after` is `before` with `status` written into every order with that id. */
  ghost predicate StatusSet(before: seq<Order>, after: seq<Order>, id: int, status: OrderStatus) {
    && |after| == |before|
    && forall i :: 0 <= i < |before| ==>
         after[i] == if before[i].id == id then before[i].(status := status) else before[i]
  }

  /** The `forEachIndexed` loop over `cartItems` of `onUpdateQuantity`. */
  function SetCartQuantity(cart: seq<CartEntry>, id: int, quantity: int): (r: seq<CartEntry>)
    ensures CartQuantitySet(cart, r, id, quantity)
  {
    if cart == [] then []
    else
      [if cart[0].product.id == id then cart[0].(quantity := quantity) else cart[0]]
      + SetCartQuantity(cart[1..], id, quantity)
  }

  /** The `forEachIndexed` loop over `products` that sets `countInCart`. */
  function SetCountInCart(products: seq<Product>, id: int, count: int): (r: seq<Product>)
    ensures CountSet(products, r, id, count)
  {
    if products == [] then []
    else
      [if products[0].id == id then products[0].(countInCart := count) else products[0]]
      + SetCountInCart(products[1..], id, count)
  }

  /** The `forEachIndexed` loop over `orders` of `onUpdateStatus`. */
  function SetOrderStatus(orders: seq<Order>, id: int, status: OrderStatus): (r: seq<Order>)
    ensures StatusSet(orders, r, id, status)
  {
    if orders == [] then []
    else
      [if orders[0].id == id then orders[0].(status := status) else orders[0]]
      + SetOrderStatus(orders[1..], id, status)
  }

  /** The cart entry is for product `id`. */
  predicate OfProduct(e: CartEntry, id: int) {
    e.product.id == id
  }

  /** `cartItems.removeIf { it.product.id == id }`. */
  function RemoveProduct(cart: seq<CartEntry>, id: int): (r: seq<CartEntry>)
    ensures forall i :: 0 <= i < |r| ==> r[i].product.id != id
  {
    if cart == [] then []
    else (if cart[0].product.id == id then [] else [cart[0]]) + RemoveProduct(cart[1..], id)
  }

  /** Removal drops every entry of the product and keeps every other entry
    * as often as the cart held it. */
  lemma {:induction false} RemoveProductCounts(cart: seq<CartEntry>, id: int)
    ensures forall e :: multiset(RemoveProduct(cart, id))[e] == if OfProduct(e, id) then 0 else multiset(cart)[e]
  {
    if cart != [] {
      RemoveProductCounts(cart[1..], id);
      assert cart == [cart[0]] + cart[1..];
    }
  }

  /** What remains after removal is exactly the cart's entries of other
    * products. */
  lemma RemoveProductMembers(cart: seq<CartEntry>, id: int)
    ensures forall e :: e in RemoveProduct(cart, id) <==> e in cart && !OfProduct(e, id)
  {
    RemoveProductCounts(cart, id);
    forall e ensures e in RemoveProduct(cart, id) <==> e in cart && !OfProduct(e, id) {
      assert e in RemoveProduct(cart, id) <==> e in multiset(RemoveProduct(cart, id));
      assert e in cart <==> e in multiset(cart);
    }
  }

  /** Removal keeps the remaining entries in their order: it distributes
    * over concatenation. */
  lemma {:induction false} RemoveProductAppend(a: seq<CartEntry>, b: seq<CartEntry>, id: int)
    ensures RemoveProduct(a + b, id) == RemoveProduct(a, id) + RemoveProduct(b, id)
  {
    if a == [] {
      assert a + b == b;
    } else {
      assert (a + b)[0] == a[0] && (a + b)[1..] == a[1..] + b;
      RemoveProductAppend(a[1..], b, id);
    }
  }

  /** A cart whose entries all belong to other products loses nothing. */
  lemma {:induction false} RemoveAbsentProduct(cart: seq<CartEntry>, id: int)
    requires forall i :: 0 <= i < |cart| ==> cart[i].product.id != id
    ensures RemoveProduct(cart, id) == cart
  {
    if cart != [] {
      RemoveAbsentProduct(cart[1..], id);
      assert cart == [cart[0]] + cart[1..];
    }
  }

  /** The checkout loop: every product with `countInCart > 0` gets 0. */
  function ResetCounts(products: seq<Product>): (r: seq<Product>)
    ensures |r| == |products|
    ensures forall i :: 0 <= i < |products| ==>
      r[i] == if products[i].countInCart > 0 then products[i].(countInCart := 0) else products[i]
  {
    if products == [] then []
    else
      [if products[0].countInCart > 0 then products[0].(countInCart := 0) else products[0]]
      + ResetCounts(products[1..])
  }

  // ---------------------------------------------------------------------
  // Cart tab callbacks
  // ---------------------------------------------------------------------

  /** `onUpdateQuantity(id, count)`: sends the new quantity, then writes it
    * into the cart entries and the products with that product id. */
  function OnUpdateQuantity(m: Mirror, id: int, count: int, response: Outcome<()>): (s: Step)
    ensures s.sent == [UpdateQuantityCart(id, count)]
    ensures response.NetworkError? ==> s.mirror == m && s.completion == Thrown(response.message)
    ensures !response.NetworkError? ==>
      && s.completion == Finished
      && CartQuantitySet(m.cart, s.mirror.cart, id, count)
      && CountSet(m.products, s.mirror.products, id, count)
      && s.mirror.orders == m.orders
  {
    var sent := [UpdateQuantityCart(id, count)];
    match response
    case NetworkError(message) => Step(m, sent, Thrown(message))
    case _ =>
      Step(Mirror(SetCountInCart(m.products, id, count), SetCartQuantity(m.cart, id, count), m.orders), sent, Finished)
  }

  /** `onRemoveItem(id)`: sends quantity 0, then drops the product's cart
    * entries and zeroes its `countInCart`. */
  function OnRemoveItem(m: Mirror, id: int, response: Outcome<()>): (s: Step)
    ensures s.sent == [UpdateQuantityCart(id, 0)]
    ensures response.NetworkError? ==> s.mirror == m && s.completion == Thrown(response.message)
    ensures !response.NetworkError? ==>
      && s.completion == Finished
      && (forall i :: 0 <= i < |s.mirror.cart| ==> s.mirror.cart[i].product.id != id)
      && (forall e: CartEntry :: e.product.id != id ==> multiset(s.mirror.cart)[e] == multiset(m.cart)[e])
      && CountSet(m.products, s.mirror.products, id, 0)
      && s.mirror.orders == m.orders
  {
    var sent := [UpdateQuantityCart(id, 0)];
    match response
    case NetworkError(message) => Step(m, sent, Thrown(message))
    case _ =>
      RemoveProductCounts(m.cart, id);
      Step(Mirror(SetCountInCart(m.products, id, 0), RemoveProduct(m.cart, id), m.orders), sent, Finished)
  }

  /** `onCheckout(address, phone)`: when the server returns the created
    * order, the cart empties, positive cart counts drop to 0, and the order
    * is appended; with no body the mirror is untouched. */
  function OnCheckout(m: Mirror, address: string, phone: string, response: Outcome<Option<Order>>): (s: Step)
    ensures s.sent == [CreateOrder(address, phone)]
    ensures response.NetworkError? ==> s.mirror == m && s.completion == Thrown(response.message)
    ensures response.HttpError? || response == Success(None) ==> s == Step(m, s.sent, Finished)
    ensures response.Success? && response.body.Some? ==>
      && s.completion == Finished
      && s.mirror.cart == []
      && s.mirror.orders == m.orders + [response.body.value]
      && |s.mirror.products| == |m.products|
      && (forall i :: 0 <= i < |m.products| ==>
            s.mirror.products[i] == m.products[i].(countInCart := if m.products[i].countInCart > 0 then 0 else m.products[i].countInCart))
  {
    var sent := [CreateOrder(address, phone)];
    match response
    case NetworkError(message) => Step(m, sent, Thrown(message))
    case HttpError(_) => Step(m, sent, Finished)
    case Success(None) => Step(m, sent, Finished)
    case Success(Some(order)) => Step(Mirror(ResetCounts(m.products), [], m.orders + [order]), sent, Finished)
  }

  /** After a checkout that returned an order, no product counts as being in
    * the cart, provided no count was negative before. */
  lemma CheckoutClearsCounts(m: Mirror, address: string, phone: string, order: Order)
    requires forall i :: 0 <= i < |m.products| ==> m.products[i].countInCart >= 0
    ensures var s := OnCheckout(m, address, phone, Success(Some(order)));
      forall i :: 0 <= i < |s.mirror.products| ==> s.mirror.products[i].countInCart == 0
  {
  }

  // ---------------------------------------------------------------------
  // Orders tab callbacks
  // ---------------------------------------------------------------------

  /** `onUpdateStatus(orderId, status)`: sends the status, then writes it
    * into the orders with that id. */
  function OnUpdateStatus(m: Mirror, orderId: int, status: OrderStatus, response: Outcome<()>): (s: Step)
    ensures s.sent == [UpdateStatusOrder(orderId, status)]
    ensures response.NetworkError? ==> s.mirror == m && s.completion == Thrown(response.message)
    ensures !response.NetworkError? ==>
      && s.completion == Finished
      && StatusSet(m.orders, s.mirror.orders, orderId, status)
      && s.mirror.products == m.products && s.mirror.cart == m.cart
  {
    var sent := [UpdateStatusOrder(orderId, status)];
    match response
    case NetworkError(message) => Step(m, sent, Thrown(message))
    case _ => Step(m.(orders := SetOrderStatus(m.orders, orderId, status)), sent, Finished)
  }

  /** The local updates do not depend on what the server answered, only on
    * whether the call returned at all. */
  lemma LocalUpdateIgnoresServerAnswer(m: Mirror, id: int, count: int, status: OrderStatus, errorBody: Option<string>)
    ensures OnUpdateQuantity(m, id, count, Success(())) == OnUpdateQuantity(m, id, count, HttpError(errorBody))
    ensures OnRemoveItem(m, id, Success(())) == OnRemoveItem(m, id, HttpError(errorBody))
    ensures OnUpdateStatus(m, id, status, Success(())) == OnUpdateStatus(m, id, status, HttpError(errorBody))
  {
  }

  /** `onLogout`: clears the stored token and navigates to "auth"; the other
    * session keys stay. */
  function OnLogout(store: Store): (r: (Store, string))
    requires WellTyped(store)
    ensures WellTyped(r.0)
    ensures GetAccessToken(r.0) == None && r.1 == "auth"
    ensures StartDestination(r.0) == "auth"
    ensures GetUsername(r.0) == GetUsername(store) && GetIsAdmin(r.0) == GetIsAdmin(store)
    ensures GetUserId(r.0) == GetUserId(store)
  {
    (SaveAccessToken(store, None), "auth")
  }

  // ---------------------------------------------------------------------
  // Home tab callbacks
  // ---------------------------------------------------------------------

  /** The request `onUpdateCountInCart` sends for a product whose mirrored
    * count is `current` and whose card asks for `value`, and the count it
    * then stores: a product not yet in the cart is added with quantity 1,
    * whatever was asked; otherwise the quantity is set to `value`. */
  function CountRequest(id: int, current: int, value: int): (r: (ApiCall, int))
    ensures current <= 0 ==> r == (AddToCart(id, 1), 1)
    ensures current > 0 ==> r == (UpdateQuantityCart(id, value), value)
  {
    if current <= 0 then (AddToCart(id, 1), 1) else (UpdateQuantityCart(id, value), value)
  }

  /** The cart list after the `getAllCarts()` refresh returned: its body, or
    * empty when there is none (`body() ?: emptyList()`). */
  function RefreshedCart(refresh: Outcome<Option<seq<CartEntry>>>): (cart: seq<CartEntry>)
    requires !refresh.NetworkError?
    ensures refresh.Success? && refresh.body.Some? ==> cart == refresh.body.value
    ensures refresh.Success? && refresh.body.None? ==> cart == []
    ensures refresh.HttpError? ==> cart == []
  {
    match refresh
    case Success(body) => body.GetOr([])
    case HttpError(_) => []
  }

  /** `onUpdateCountInCart(product, value, index)` as the source has it: the
    * new product record is written at `index`, which is the product's
    * position in the grid's filtered and sorted list, not in `products`. */
  function OnUpdateCountInCartAsWritten(
    m: Mirror, product: Product, value: int, index: int,
    response: Outcome<()>, refresh: Outcome<Option<seq<CartEntry>>>): (s: Step)
    requires 0 <= index < |m.products|
    ensures product.countInCart == value ==> s == Step(m, [], Finished)
    ensures product.countInCart != value && !response.NetworkError? ==>
      |s.mirror.products| == |m.products|
      && s.mirror.products[index] == product.(countInCart := CountRequest(product.id, product.countInCart, value).1)
      && (forall i :: 0 <= i < |m.products| && i != index ==> s.mirror.products[i] == m.products[i])
  {
    if product.countInCart == value then Step(m, [], Finished)
    else
      var (call, count) := CountRequest(product.id, product.countInCart, value);
      if response.NetworkError? then Step(m, [call], Thrown(response.message))
      else
        var products := m.products[index := product.(countInCart := count)];
        match refresh
        case NetworkError(message) => Step(m.(products := products), [call, GetAllCarts], Thrown(message))
        case _ => Step(Mirror(products, RefreshedCart(refresh), m.orders), [call, GetAllCarts], Finished)
  }

  /** When the grid order differs from the list order, the slot at `index`
    * holds another product, and the as-written update overwrites it with a
    * copy of the clicked one. */
  lemma AsWrittenOverwritesOtherProduct(
    m: Mirror, product: Product, value: int, index: int,
    response: Outcome<()>, refresh: Outcome<Option<seq<CartEntry>>>)
    requires 0 <= index < |m.products|
    requires m.products[index].id != product.id
    requires product.countInCart != value && !response.NetworkError?
    ensures var s := OnUpdateCountInCartAsWritten(m, product, value, index, response, refresh);
      s.mirror.products[index].id == product.id && s.mirror.products[index].id != m.products[index].id
  {
  }

  /** Two products listed cheaper-second: the default price-ascending grid
    * shows the cheaper one first, so adding it to the cart from the grid
    * (grid index 0) overwrites the other product, which disappears. */
  lemma AsWrittenLosesProduct()
    ensures
      var m := Mirror([Apples, Beets], [], []);
      var shown := ProductGrid.View(m.products, ProductGrid.InitialFilter, ProductGrid.InitialSortOption);
      && shown == [Beets, Apples]
      && var s := OnUpdateCountInCartAsWritten(m, shown[0], 1, 0, Success(()), Success(Some([])));
         && s.mirror.products == [Beets.(countInCart := 1), Beets]
         && forall i :: 0 <= i < |s.mirror.products| ==> s.mirror.products[i].id != Apples.id
  {
    CheaperShownFirst();
  }

  /** Two products of one category: the dearer one listed first. */
  const Apples := Product(1, "Apples", "", 2.0, 5, "", 0, 1, false)
  const Beets := Product(2, "Beets", "", 1.0, 5, "", 0, 1, false)

  /** Under the initial controls the grid shows the cheaper product first,
    * so grid index 0 is list index 1. */
  lemma CheaperShownFirst()
    ensures ProductGrid.View([Apples, Beets], ProductGrid.InitialFilter, ProductGrid.InitialSortOption) == [Beets, Apples]
  {
    var o := ProductGrid.SortOrderOf(ProductGrid.InitialSortOption);
    assert o == ProductGrid.PriceAscending;
    assert ProductGrid.Shown(ProductGrid.InitialFilter, Apples) && ProductGrid.Shown(ProductGrid.InitialFilter, Beets);
    assert ProductGrid.Filter([Beets], ProductGrid.InitialFilter) == [Beets];
    assert ProductGrid.Filter([Apples, Beets], ProductGrid.InitialFilter) == [Apples, Beets];
    assert ProductGrid.Sort(o, [Beets]) == [Beets];
    assert ProductGrid.Insert(o, Apples, [Beets]) == [Beets, Apples];
  }

  /** `onUpdateCountInCart(product, value)` corrected: the product is found
    * by its id, as every other callback of the screen does. Nothing happens
    * when the card's count equals the mirrored one; otherwise the request of
    * `CountRequest` is sent, the count it stores is written into the
    * products with that id, and the cart is refreshed from the server. */
  function OnUpdateCountInCart(
    m: Mirror, product: Product, value: int,
    response: Outcome<()>, refresh: Outcome<Option<seq<CartEntry>>>): (s: Step)
    ensures product.countInCart == value ==> s == Step(m, [], Finished)
    ensures product.countInCart != value ==>
      |s.sent| >= 1 && s.sent[0] == CountRequest(product.id, product.countInCart, value).0
    ensures product.countInCart != value && response.NetworkError? ==>
      s.mirror == m && s.completion == Thrown(response.message)
    ensures product.countInCart != value && !response.NetworkError? ==>
      && CountSet(m.products, s.mirror.products, product.id, CountRequest(product.id, product.countInCart, value).1)
      && s.sent == [CountRequest(product.id, product.countInCart, value).0, GetAllCarts]
      && s.mirror.orders == m.orders
      && (refresh.NetworkError? ==> s.mirror.cart == m.cart && s.completion == Thrown(refresh.message))
      && (!refresh.NetworkError? ==> s.mirror.cart == RefreshedCart(refresh) && s.completion == Finished)
  {
    if product.countInCart == value then Step(m, [], Finished)
    else
      var (call, count) := CountRequest(product.id, product.countInCart, value);
      if response.NetworkError? then Step(m, [call], Thrown(response.message))
      else
        var products := SetCountInCart(m.products, product.id, count);
        match refresh
        case NetworkError(message) => Step(m.(products := products), [call, GetAllCarts], Thrown(message))
        case _ => Step(Mirror(products, RefreshedCart(refresh), m.orders), [call, GetAllCarts], Finished)
  }

  /** The corrected update never loses or duplicates a product: every slot
    * keeps its product, only `countInCart` may change. */
  lemma CorrectedKeepsProducts(
    m: Mirror, product: Product, value: int,
    response: Outcome<()>, refresh: Outcome<Option<seq<CartEntry>>>)
    ensures var s := OnUpdateCountInCart(m, product, value, response, refresh);
      |s.mirror.products| == |m.products|
      && forall i :: 0 <= i < |m.products| ==>
           s.mirror.products[i] == m.products[i].(countInCart := s.mirror.products[i].countInCart)
  {
  }

  /** `onUpdateFavorite(product, value, index)` as the source has it: the
    * same grid index is used to write into `products`. */
  function OnUpdateFavoriteAsWritten(m: Mirror, product: Product, value: bool, index: int, response: Outcome<()>): (s: Step)
    requires 0 <= index < |m.products|
    ensures product.favorite == value ==> s == Step(m, [], Finished)
    ensures product.favorite != value && !response.NetworkError? ==>
      s.mirror.products == m.products[index := product.(favorite := value)]
  {
    if product.favorite == value then Step(m, [], Finished)
    else if response.NetworkError? then Step(m, [UpdateFavorite(product.id)], Thrown(response.message))
    else Step(m.(products := m.products[index := product.(favorite := value)]), [UpdateFavorite(product.id)], Finished)
  }

  /** The same two products: marking the cheaper one a favourite from the
    * grid (grid index 0) writes it over the other product, which
    * disappears. */
  lemma AsWrittenFavoriteLosesProduct()
    ensures
      var m := Mirror([Apples, Beets], [], []);
      var shown := ProductGrid.View(m.products, ProductGrid.InitialFilter, ProductGrid.InitialSortOption);
      && shown == [Beets, Apples]
      && var s := OnUpdateFavoriteAsWritten(m, shown[0], true, 0, Success(()));
         && s.mirror.products == [Beets.(favorite := true), Beets]
         && forall i :: 0 <= i < |s.mirror.products| ==> s.mirror.products[i].id != Apples.id
  {
    CheaperShownFirst();
  }

  /** The favourite mark written into every product with that id. */
  function SetFavorite(products: seq<Product>, id: int, value: bool): (r: seq<Product>)
    ensures |r| == |products|
    ensures forall i :: 0 <= i < |products| ==>
      r[i] == if products[i].id == id then products[i].(favorite := value) else products[i]
  {
    if products == [] then []
    else
      [if products[0].id == id then products[0].(favorite := value) else products[0]]
      + SetFavorite(products[1..], id, value)
  }

  /** `onUpdateFavorite(product, value)` corrected: the product is found by id. */
  function OnUpdateFavorite(m: Mirror, product: Product, value: bool, response: Outcome<()>): (s: Step)
    ensures product.favorite == value ==> s == Step(m, [], Finished)
    ensures product.favorite != value ==> s.sent == [UpdateFavorite(product.id)]
    ensures product.favorite != value && response.NetworkError? ==> s.mirror == m
    ensures product.favorite != value && !response.NetworkError? ==>
      && |s.mirror.products| == |m.products|
      && (forall i :: 0 <= i < |m.products| && m.products[i].id == product.id ==> s.mirror.products[i].favorite == value)
      && (forall i :: 0 <= i < |m.products| ==>
            s.mirror.products[i] == m.products[i].(favorite := s.mirror.products[i].favorite))
      && (forall i :: 0 <= i < |m.products| && m.products[i].id != product.id ==> s.mirror.products[i] == m.products[i])
      && s.mirror.cart == m.cart && s.mirror.orders == m.orders
  {
    if product.favorite == value then Step(m, [], Finished)
    else if response.NetworkError? then Step(m, [UpdateFavorite(product.id)], Thrown(response.message))
    else Step(m.(products := SetFavorite(m.products, product.id, value)), [UpdateFavorite(product.id)], Finished)
  }

  // ---------------------------------------------------------------------
  // The product card's stepper (`ProductItem`)
  // ---------------------------------------------------------------------

  datatype StepperButton = Decrease | Increase | AddButton

  /** The card shows the minus/plus row while its count is positive and the
    * "add to cart" button otherwise. */
  predicate StepperVisible(count: int, b: StepperButton) {
    if count > 0 then b != AddButton else b == AddButton
  }

  /** The card's count after a click: minus decrements while positive, plus
    * increments while below stock, "add" sets 1. */
  function ItemStepper(count: int, stock: int, b: StepperButton): (r: int)
    requires StepperVisible(count, b)
    ensures b == Decrease ==> r == count - 1 && r >= 0
    ensures b == Increase ==> (r == count + 1 <==> count < stock) && (r == count <==> count >= stock)
    ensures b == AddButton ==> r == 1
    ensures b != AddButton && count <= stock ==> 0 <= r <= stock
  {
    match b
    case Decrease => if count > 0 then count - 1 else count
    case Increase => if count < stock then count + 1 else count
    case AddButton => 1
  }

  /** What a card click makes the screen send, given the card's count and
    * the mirrored product agree: "add" sends add-with-1, minus and plus send
    * the new quantity, and plus at the stock limit sends nothing. */
  lemma StepperRequests(m: Mirror, product: Product, b: StepperButton,
                        response: Outcome<()>, refresh: Outcome<Option<seq<CartEntry>>>)
    requires StepperVisible(product.countInCart, b)
    ensures var count := ItemStepper(product.countInCart, product.stock, b);
      var s := OnUpdateCountInCart(m, product, count, response, refresh);
      && (b == AddButton ==> s.sent[0] == AddToCart(product.id, 1))
      && (b == Decrease ==> s.sent[0] == UpdateQuantityCart(product.id, product.countInCart - 1))
      && (b == Increase && product.countInCart < product.stock ==>
            s.sent[0] == UpdateQuantityCart(product.id, product.countInCart + 1))
      && (b == Increase && product.countInCart >= product.stock ==> s.sent == [])
  {
  }
}

=== FILE: order_history.dfy ===
/**
 * The order history tab (`OrderHistoryScreen`, `DropdownMenuBox`): which
 * order card is expanded, the administrator's status dialog and the
 * request it raises, the status menu, and the sum shown on each card.
 */
module OrderHistory {
  import opened Wrappers
  import opened ApiModel
  import MainScreen

  /** The tab's own state: the expanded order's id, the order the dialog was
    * opened for, whether the dialog is shown, and the status chosen in it. */
  datatype HistoryState = HistoryState(
    expanded: Option<int>,
    selected: Option<Order>,
    showDialog: bool,
    newStatus: OrderStatus)

  const InitialHistory := HistoryState(None, None, false, Created)

  /** Whether the card of `o` shows its items (and, for an admin, the
    * "Изменить статус" button). */
  predicate Expanded(st: HistoryState, o: Order) {
    st.expanded == Some(o.id)
  }

  /** The dialog is on screen only while it is shown AND an order is
    * selected. */
  predicate DialogShown(st: HistoryState) {
    st.showDialog && st.selected.Some?
  }

  /** The "Изменить статус" button of an order's card. */
  predicate ChangeStatusVisible(st: HistoryState, isAdmin: bool, o: Order) {
    isAdmin && Expanded(st, o)
  }

  datatype HistoryEvent =
    | ClickOrder(order: Order)        // a tap on an order card
    | OpenStatusDialog(order: Order)  // "Изменить статус" on that card
    | ChooseStatus(status: OrderStatus) // an entry of the status menu
    | Save                            // "Сохранить"
    | Cancel                          // "Отмена"
    | DismissDialog                   // a tap outside the dialog

  /** Events the screen can deliver in state `st`: while the dialog is up,
    * a tap outside it dismisses the dialog instead of reaching a card. */
  predicate Possible(st: HistoryState, isAdmin: bool, e: HistoryEvent) {
    match e
    case OpenStatusDialog(o) => ChangeStatusVisible(st, isAdmin, o)
    case ChooseStatus(s) => DialogShown(st) && s in StatusChoices(st.newStatus)
    case Save => DialogShown(st)
    case Cancel => DialogShown(st)
    case DismissDialog => DialogShown(st)
    case ClickOrder(_) => !DialogShown(st)
  }

  /** The entries of the status menu: every status, whatever the current one. */
  function StatusChoices(current: OrderStatus): (choices: seq<OrderStatus>)
    ensures forall s: OrderStatus :: s in choices
    ensures |choices| == 4
  {
    assert forall s: OrderStatus :: s in AllStatuses by {
      forall s: OrderStatus ensures s in AllStatuses {
        AllStatusesComplete(s);
      }
    }
    AllStatuses
  }

  /** The tab's reaction to an event: the new state and the status update
    * (order id, status) it hands to the main screen, if any. */
  function HistoryStep(st: HistoryState, isAdmin: bool, e: HistoryEvent): (r: (HistoryState, Option<(int, OrderStatus)>))
    requires Possible(st, isAdmin, e)
    ensures e.ClickOrder? ==> (Expanded(r.0, e.order) <==> !Expanded(st, e.order))
    ensures e.ClickOrder? ==> r.0.expanded.None? || Expanded(r.0, e.order)
    ensures e.ClickOrder? ==> r.0 == st.(expanded := r.0.expanded)
    ensures (e.Save? || e.Cancel? || e.DismissDialog?) ==> r.0 == st.(showDialog := false)
    ensures e.OpenStatusDialog? ==>
      DialogShown(r.0) && r.0.selected == Some(e.order) && r.0.newStatus == e.order.status
    ensures e.ChooseStatus? ==> DialogShown(r.0) && r.0.newStatus == e.status && r.0.selected == st.selected
    ensures e.Save? ==> r.1 == Some((st.selected.value.id, st.newStatus)) && !DialogShown(r.0)
    ensures !e.Save? ==> r.1 == None
    ensures (e.Cancel? || e.DismissDialog?) ==> !DialogShown(r.0)
    ensures !e.ClickOrder? ==> r.0.expanded == st.expanded
  {
    match e
    case ClickOrder(o) =>
      (st.(expanded := if st.expanded == Some(o.id) then None else Some(o.id)), None)
    case OpenStatusDialog(o) =>
      (st.(selected := Some(o), newStatus := o.status, showDialog := true), None)
    case ChooseStatus(s) =>
      (st.(newStatus := s), None)
    case Save =>
      (st.(showDialog := false), Some((st.selected.value.id, st.newStatus)))
    case Cancel =>
      (st.(showDialog := false), None)
    case DismissDialog =>
      (st.(showDialog := false), None)
  }

  /** A run of events, each possible where it happens, and the status
    * updates it hands on. */
  function Run(st: HistoryState, isAdmin: bool, events: seq<HistoryEvent>): (r: Option<(HistoryState, seq<(int, OrderStatus)>)>)
    ensures events == [] ==> r == Some((st, []))
    decreases |events|
  {
    if events == [] then Some((st, []))
    else if !Possible(st, isAdmin, events[0]) then None
    else
      var (next, update) := HistoryStep(st, isAdmin, events[0]);
      match Run(next, isAdmin, events[1..])
      case None => None
      case Some((last, updates)) =>
        Some((last, (if update.Some? then [update.value] else []) + updates))
  }

  /** Two taps on the same card give back the expansion state whenever that
    * card or none was expanded; with another card expanded, the second tap
    * collapses everything. */
  lemma ClickTwice(st: HistoryState, o: Order)
    requires !DialogShown(st)
    ensures var once := HistoryStep(st, false, ClickOrder(o)).0;
      var twice := HistoryStep(once, false, ClickOrder(o)).0;
      (st.expanded.None? || Expanded(st, o) ==> twice == st)
      && (st.expanded.Some? && !Expanded(st, o) ==> twice.expanded.None?)
  {
  }

  /** Opening the dialog on an order, choosing any status `s` (none is
    * ruled out by the order's current one) and saving hands on exactly one
    * update, (that order's id, s), and closes the dialog. */
  lemma AnyStatusCanFollow(st: HistoryState, o: Order, s: OrderStatus)
    requires ChangeStatusVisible(st, true, o)
    ensures var r := Run(st, true, [OpenStatusDialog(o), ChooseStatus(s), Save]);
      r.Some? && r.value.1 == [(o.id, s)] && !DialogShown(r.value.0)
  {
    var s1 := HistoryStep(st, true, OpenStatusDialog(o)).0;
    var s2 := HistoryStep(s1, true, ChooseStatus(s)).0;
    var s3 := HistoryStep(s2, true, Save).0;
    assert s in StatusChoices(s1.newStatus);
    assert [OpenStatusDialog(o), ChooseStatus(s), Save][1..] == [ChooseStatus(s), Save];
    assert [ChooseStatus(s), Save][1..] == [Save];
    assert [Save][1..] == [];
    assert Run(s3, true, []) == Some((s3, []));
    assert HistoryStep(s2, true, Save).1 == Some((o.id, s));
    assert [(o.id, s)] + [] == [(o.id, s)];
    assert Run(s2, true, [Save]) == Some((s3, [(o.id, s)]));
    assert [ChooseStatus(s), Save][0] == ChooseStatus(s);
    assert HistoryStep(s1, true, ChooseStatus(s)) == (s2, None);
    assert [] + [(o.id, s)] == [(o.id, s)];
    assert Run(s1, true, [ChooseStatus(s), Save]) == Some((s3, [(o.id, s)]));
  }

  /** Opening the dialog and leaving it by "Отмена" or a tap outside hands
    * on no update. */
  lemma CancelSendsNothing(st: HistoryState, o: Order, s: OrderStatus, leave: HistoryEvent)
    requires ChangeStatusVisible(st, true, o)
    requires leave == Cancel || leave == DismissDialog
    ensures var r := Run(st, true, [OpenStatusDialog(o), ChooseStatus(s), leave]);
      r.Some? && r.value.1 == [] && !DialogShown(r.value.0)
  {
    var s1 := HistoryStep(st, true, OpenStatusDialog(o)).0;
    var s2 := HistoryStep(s1, true, ChooseStatus(s)).0;
    var s3 := HistoryStep(s2, true, leave).0;
    assert s in StatusChoices(s1.newStatus);
    assert [OpenStatusDialog(o), ChooseStatus(s), leave][1..] == [ChooseStatus(s), leave];
    assert [ChooseStatus(s), leave][1..] == [leave];
    assert [leave][1..] == [];
    assert Run(s3, true, []) == Some((s3, []));
    assert [leave][0] == leave;
    assert HistoryStep(s2, true, leave) == (s3, None);
    assert Possible(s2, true, leave);
    var none: seq<(int, OrderStatus)> := [];
    assert none + none == none;
    assert Run(s2, true, [leave]) == Some((s3, []));
    assert Run(s1, true, [ChooseStatus(s), leave]) == Some((s3, []));
  }

  /** A non-admin never sees the button, so no run opens the dialog and no
    * run hands on an update. */
  lemma NonAdminSendsNothing(st: HistoryState, events: seq<HistoryEvent>)
    requires !DialogShown(st)
    requires Run(st, false, events).Some?
    ensures Run(st, false, events).value.1 == []
    ensures !DialogShown(Run(st, false, events).value.0)
    decreases |events|
  {
    if events != [] {
      var next := HistoryStep(st, false, events[0]).0;
      NonAdminSendsNothing(next, events[1..]);
    }
  }

  /** A saved status reaches the main screen's order list: the chosen order
    * gets the chosen status and every other order stays as it was. */
  lemma SavedStatusReachesMirror(m: MainScreen.Mirror, st: HistoryState, o: Order, s: OrderStatus, k: int)
    requires ChangeStatusVisible(st, true, o)
    requires 0 <= k < |m.orders|
    ensures var r := Run(st, true, [OpenStatusDialog(o), ChooseStatus(s), Save]);
      r.Some? && |r.value.1| == 1 &&
      var (id, status) := r.value.1[0];
      var after := MainScreen.OnUpdateStatus(m, id, status, Success(())).mirror.orders;
      && |after| == |m.orders|
      && (m.orders[k].id == o.id ==> after[k] == m.orders[k].(status := s))
      && (m.orders[k].id != o.id ==> after[k] == m.orders[k])
  {
    AnyStatusCanFollow(st, o, s);
    var after := MainScreen.OnUpdateStatus(m, o.id, s, Success(())).mirror.orders;
    assert MainScreen.StatusSet(m.orders, after, o.id, s);
  }

  /** `sumOf { it.price * it.quantity }` over an order's items. */
  function ItemsSum(items: seq<OrderItem>): (sum: real)
    ensures items == [] ==> sum == 0.0
  {
    if items == [] then 0.0 else items[0].price * items[0].quantity as real + ItemsSum(items[1..])
  }

  /** The sum a card shows: 0 for an order without items. */
  function DisplayedSum(o: Order): (sum: real)
    ensures o.items == [] ==> sum == 0.0
  {
    ItemsSum(o.items)
  }

  /** The shown sum is computed from the items alone: the order's recorded
    * `totalPrice` (and its status, address and phone) play no part, and the
    * sum adds up over the items. */
  lemma {:induction false} DisplayedSumFromItems(o: Order, total: real, extra: seq<OrderItem>)
    ensures DisplayedSum(o.(totalPrice := total)) == DisplayedSum(o)
    ensures DisplayedSum(o.(items := o.items + extra)) == DisplayedSum(o) + ItemsSum(extra)
  {
    ItemsSumAppend(o.items, extra);
  }

  lemma {:induction false} ItemsSumAppend(a: seq<OrderItem>, b: seq<OrderItem>)
    ensures ItemsSum(a + b) == ItemsSum(a) + ItemsSum(b)
  {
    if a == [] {
      assert a + b == b;
    } else {
      assert (a + b)[0] == a[0] && (a + b)[1..] == a[1..] + b;
      ItemsSumAppend(a[1..], b);
    }
  }

  /** With non-negative prices and quantities the item sum, and so the sum
    * a card shows, is non-negative. */
  lemma {:induction false} ItemsSumNonNegative(items: seq<OrderItem>)
    requires forall i :: 0 <= i < |items| ==> items[i].price >= 0.0 && items[i].quantity >= 0
    ensures ItemsSum(items) >= 0.0
  {
    if items != [] {
      ItemsSumNonNegative(items[1..]);
    }
  }
}

=== FILE: product_grid.dfy ===
/**
 * The product list of the home tab (`ProductGrid`): the filter state
 * (search query, selected category, favourites-only switch), the filter
 * predicate, the five sort orders behind the sort option labels, and the
 * stable sort `sortedWith` performs.
 */
module ProductGrid {
  import opened Wrappers
  import opened Text
  import opened ApiModel

  /** The grid's filter controls. */
  datatype FilterState = FilterState(query: string, category: Option<Category>, favoritesOnly: bool)

  /** Empty query, "all categories", favourites-only off. */
  const InitialFilter := FilterState("", None, false)

  /** A product passes the filter: its name contains the query, letter case
    * ignored; its category is the selected one, if one is selected; and it
    * is a favourite, if favourites-only is on. */
  predicate Shown(f: FilterState, p: Product): (r: bool)
    ensures r <==>
      && (exists i :: MatchesAt(p.name, f.query, i))
      && (f.category.None? || p.categoryId == f.category.value.id)
      && (!f.favoritesOnly || p.favorite)
  {
    && ContainsIgnoreCase(p.name, f.query)
    && (f.category.None? || p.categoryId == f.category.value.id)
    && (!f.favoritesOnly || p.favorite)
  }

  /** `products.filter { ... }`: the products that pass, in list order. */
  function Filter(products: seq<Product>, f: FilterState): (r: seq<Product>)
    ensures forall i :: 0 <= i < |r| ==> Shown(f, r[i])
  {
    if products == [] then []
    else (if Shown(f, products[0]) then [products[0]] else []) + Filter(products[1..], f)
  }

  /** The filter keeps every passing product as often as the list holds it,
    * and no other. */
  lemma {:induction false} FilterCounts(products: seq<Product>, f: FilterState)
    ensures forall p :: multiset(Filter(products, f))[p] == if Shown(f, p) then multiset(products)[p] else 0
  {
    if products != [] {
      FilterCounts(products[1..], f);
      assert products == [products[0]] + products[1..];
    }
  }

  /** Filtering keeps the relative order of the products it keeps: it
    * distributes over concatenation. */
  lemma {:induction false} FilterAppend(a: seq<Product>, b: seq<Product>, f: FilterState)
    ensures Filter(a + b, f) == Filter(a, f) + Filter(b, f)
  {
    if a == [] {
      assert a + b == b;
    } else {
      assert (a + b)[0] == a[0] && (a + b)[1..] == a[1..] + b;
      FilterAppend(a[1..], b, f);
    }
  }

  /** The search field's `onValueChange`. */
  function SetQuery(f: FilterState, query: string): (r: FilterState)
    ensures r.query == query && r.category == f.category && r.favoritesOnly == f.favoritesOnly
  {
    f.(query := query)
  }

  /** The "all categories" chip. */
  function ChooseAllCategories(f: FilterState): (r: FilterState)
    ensures r.category == None && r.query == f.query && r.favoritesOnly == f.favoritesOnly
  {
    f.(category := None)
  }

  /** A category chip: selects it, or deselects it when it is the selected one. */
  function ClickCategory(f: FilterState, c: Category): (r: FilterState)
    ensures r.category == Some(c) <==> f.category != Some(c)
    ensures r.category == None <==> f.category == Some(c)
    ensures r.query == f.query && r.favoritesOnly == f.favoritesOnly
  {
    f.(category := if f.category == Some(c) then None else Some(c))
  }

  /** The favourites button flips the favourites-only switch. */
  function ToggleFavorites(f: FilterState): (r: FilterState)
    ensures r.favoritesOnly != f.favoritesOnly
    ensures r.query == f.query && r.category == f.category
  {
    f.(favoritesOnly := !f.favoritesOnly)
  }

  /** Clicking the same category chip twice, or the favourites button
    * twice, restores the filter. */
  lemma {:induction false} TogglesUndo(f: FilterState, c: Category)
    ensures f.category == None || f.category == Some(c) ==> ClickCategory(ClickCategory(f, c), c) == f
    ensures ToggleFavorites(ToggleFavorites(f)) == f
  {
  }

  datatype SortOrder = PriceAscending | PriceDescending | NameAscending | NameDescending | ById

  const PriceAscendingOption := "Цена (по возрастанию)"
  const PriceDescendingOption := "Цена (по убыванию)"
  const NameAscendingOption := "Алфавит (A-Z)"
  const NameDescendingOption := "Алфавит (Z-A)"

  /** The options the sort dropdown lists. */
  const SortOptions := [PriceAscendingOption, PriceDescendingOption, NameAscendingOption, NameDescendingOption]

  /** The option selected when the grid first appears. */
  const InitialSortOption := PriceAscendingOption

  /** The `when (sortOption)` choice of comparator. */
  function SortOrderOf(option: string): (o: SortOrder)
    ensures o == PriceAscending <==> option == PriceAscendingOption
    ensures o == PriceDescending <==> option == PriceDescendingOption
    ensures o == NameAscending <==> option == NameAscendingOption
    ensures o == NameDescending <==> option == NameDescendingOption
    ensures o == ById <==> option !in SortOptions
  {
    if option == PriceAscendingOption then PriceAscending
    else if option == PriceDescendingOption then PriceDescending
    else if option == NameAscendingOption then NameAscending
    else if option == NameDescendingOption then NameDescending
    else ById
  }

  /** The four dropdown options select four different orders, none of them
    * the by-id fallback, and the initial option sorts by ascending price. */
  lemma SortOptionsDistinct()
    ensures forall i, j :: 0 <= i < j < |SortOptions| ==> SortOrderOf(SortOptions[i]) != SortOrderOf(SortOptions[j])
    ensures forall i :: 0 <= i < |SortOptions| ==> SortOrderOf(SortOptions[i]) != ById
    ensures SortOrderOf(InitialSortOption) == PriceAscending
  {
  }

  /** `a` may come before `b` under the comparator of order `o`
    * (`compare(a, b) <= 0`). */
  predicate Before(o: SortOrder, a: Product, b: Product): (r: bool)
    ensures a == b ==> r
  {
    match o
    case PriceAscending => a.price <= b.price
    case PriceDescending => a.price >= b.price
    case NameAscending => StringLessEq(a.name, b.name)
    case NameDescending => StringLessEq(b.name, a.name)
    case ById => a.id <= b.id
  }

  /** Equal sort keys: the comparator answers 0. */
  predicate Equivalent(o: SortOrder, a: Product, b: Product) {
    Before(o, a, b) && Before(o, b, a)
  }

  lemma BeforeTotal(o: SortOrder, a: Product, b: Product)
    ensures Before(o, a, b) || Before(o, b, a)
  {
    match o
    case NameAscending => StringLessEqTotal(a.name, b.name);
    case NameDescending => StringLessEqTotal(a.name, b.name);
    case _ =>
  }

  lemma BeforeTransitive(o: SortOrder, a: Product, b: Product, c: Product)
    requires Before(o, a, b) && Before(o, b, c)
    ensures Before(o, a, c)
  {
    match o
    case NameAscending => StringLessEqTransitive(a.name, b.name, c.name);
    case NameDescending => StringLessEqTransitive(c.name, b.name, a.name);
    case _ =>
  }

  /** Every earlier element may come before every later one. */
  predicate Sorted(o: SortOrder, s: seq<Product>) {
    forall i, j :: 0 <= i < j < |s| ==> Before(o, s[i], s[j])
  }

  /** Inserts `x` before the first element it may precede. */
  function Insert(o: SortOrder, x: Product, s: seq<Product>): (r: seq<Product>)
    ensures |r| == |s| + 1
  {
    if s == [] then [x]
    else if Before(o, x, s[0]) then [x] + s
    else [s[0]] + Insert(o, x, s[1..])
  }

  /** Inserting adds exactly the one element. */
  lemma {:induction false} InsertPermutes(o: SortOrder, x: Product, s: seq<Product>)
    ensures multiset(Insert(o, x, s)) == multiset(s) + multiset{x}
  {
    if s != [] && !Before(o, x, s[0]) {
      InsertPermutes(o, x, s[1..]);
      assert s == [s[0]] + s[1..];
    }
  }

  /** Stable insertion sort: each element goes in front of the sorted rest. */
  function Sort(o: SortOrder, s: seq<Product>): (r: seq<Product>)
    ensures multiset(r) == multiset(s)
  {
    if s == [] then []
    else
      assert s == [s[0]] + s[1..];
      InsertPermutes(o, s[0], Sort(o, s[1..]));
      Insert(o, s[0], Sort(o, s[1..]))
  }

  lemma {:induction false} InsertSorted(o: SortOrder, x: Product, s: seq<Product>)
    requires Sorted(o, s)
    ensures Sorted(o, Insert(o, x, s))
  {
    if s == [] {
    } else if Before(o, x, s[0]) {
      forall z | z in s ensures Before(o, x, z) {
        var j :| 0 <= j < |s| && s[j] == z;
        if j > 0 {
          BeforeTransitive(o, x, s[0], s[j]);
        }
      }
      SortedCons(o, x, s);
    } else {
      BeforeTotal(o, x, s[0]);
      SortedTail(o, s);
      InsertSorted(o, x, s[1..]);
      var t := Insert(o, x, s[1..]);
      InsertMembers(o, x, s[1..]);
      forall z | z in t ensures Before(o, s[0], z) {
        if z != x {
          var j :| 0 <= j < |s[1..]| && s[1..][j] == z;
          assert s[j + 1] == z;
        }
      }
      SortedCons(o, s[0], t);
    }
  }

  /** The elements of an insertion are the inserted one and the old ones. */
  lemma {:induction false} InsertMembers(o: SortOrder, x: Product, s: seq<Product>)
    ensures forall z :: z in Insert(o, x, s) <==> z == x || z in s
  {
    if s != [] && !Before(o, x, s[0]) {
      InsertMembers(o, x, s[1..]);
      assert s == [s[0]] + s[1..];
    }
  }

  /** The tail of a sorted list is sorted. */
  lemma SortedTail(o: SortOrder, s: seq<Product>)
    requires s != [] && Sorted(o, s)
    ensures Sorted(o, s[1..])
  {
    forall i, j | 0 <= i < j < |s[1..]| ensures Before(o, s[1..][i], s[1..][j]) {
      assert s[1..][i] == s[i + 1] && s[1..][j] == s[j + 1];
    }
  }

  /** A sorted list stays sorted behind an element that may precede all of
    * it. */
  lemma SortedCons(o: SortOrder, y: Product, t: seq<Product>)
    requires Sorted(o, t)
    requires forall z :: z in t ==> Before(o, y, z)
    ensures Sorted(o, [y] + t)
  {
    var r := [y] + t;
    forall i, j | 0 <= i < j < |r| ensures Before(o, r[i], r[j]) {
      assert r[j] == t[j - 1];
      if i > 0 {
        assert r[i] == t[i - 1];
      }
    }
  }

  lemma {:induction false} SortSorted(o: SortOrder, s: seq<Product>)
    ensures Sorted(o, Sort(o, s))
  {
    if s != [] {
      SortSorted(o, s[1..]);
      InsertSorted(o, s[0], Sort(o, s[1..]));
    }
  }

  /** The elements of `s` whose sort key equals `k`'s, in order. */
  function EquivalentTo(o: SortOrder, s: seq<Product>, k: Product): seq<Product> {
    if s == [] then []
    else (if Equivalent(o, s[0], k) then [s[0]] else []) + EquivalentTo(o, s[1..], k)
  }

  lemma EquivalentToCons(o: SortOrder, y: Product, t: seq<Product>, k: Product)
    ensures EquivalentTo(o, [y] + t, k) == (if Equivalent(o, y, k) then [y] else []) + EquivalentTo(o, t, k)
  {
    assert ([y] + t)[0] == y && ([y] + t)[1..] == t;
  }

  lemma {:induction false} InsertStable(o: SortOrder, x: Product, s: seq<Product>, k: Product)
    ensures EquivalentTo(o, Insert(o, x, s), k)
      == (if Equivalent(o, x, k) then [x] else []) + EquivalentTo(o, s, k)
  {
    if s == [] {
      EquivalentToCons(o, x, [], k);
    } else if Before(o, x, s[0]) {
      EquivalentToCons(o, x, s, k);
    } else {
      InsertStable(o, x, s[1..], k);
      InsertPastHead(o, x, s, k);
    }
  }

  /** The step of `InsertStable` where `x` goes past the head of `s`: the
    * head cannot share `x`'s key, so the two keep their relative order in
    * every key's sub-list. */
  lemma InsertPastHead(o: SortOrder, x: Product, s: seq<Product>, k: Product)
    requires s != [] && !Before(o, x, s[0])
    requires EquivalentTo(o, Insert(o, x, s[1..]), k)
      == (if Equivalent(o, x, k) then [x] else []) + EquivalentTo(o, s[1..], k)
    ensures EquivalentTo(o, Insert(o, x, s), k)
      == (if Equivalent(o, x, k) then [x] else []) + EquivalentTo(o, s, k)
  {
    var t := Insert(o, x, s[1..]);
    var e0 := if Equivalent(o, s[0], k) then [s[0]] else [];
    var ex := if Equivalent(o, x, k) then [x] else [];
    var rest := EquivalentTo(o, s[1..], k);
    InsertAfterHead(o, x, s);
    EquivalentToCons(o, s[0], t, k);
    assert EquivalentTo(o, Insert(o, x, s), k) == e0 + (ex + rest);
    EquivalentToCons(o, s[0], s[1..], k);
    assert [s[0]] + s[1..] == s;
    assert EquivalentTo(o, s, k) == e0 + rest;
    NotBothEquivalent(o, x, s[0], k);
    Reorder(e0, ex, rest);
  }

  /** `x` goes after the head it may not precede. */
  lemma InsertAfterHead(o: SortOrder, x: Product, s: seq<Product>)
    requires s != [] && !Before(o, x, s[0])
    ensures Insert(o, x, s) == [s[0]] + Insert(o, x, s[1..])
  {
  }

  /** Two pieces of which at least one is empty may be swapped. */
  lemma Reorder(a: seq<Product>, b: seq<Product>, c: seq<Product>)
    requires a == [] || b == []
    ensures a + (b + c) == b + (a + c)
  {
    if a == [] {
      assert a + (b + c) == b + c;
      assert a + c == c;
    } else {
      assert b + c == c;
      assert b + (a + c) == a + c;
    }
  }

  /** An element that may not precede `y` does not share a sort key with
    * it. */
  lemma NotBothEquivalent(o: SortOrder, x: Product, y: Product, k: Product)
    requires !Before(o, x, y)
    ensures !(Equivalent(o, x, k) && Equivalent(o, y, k))
  {
    if Equivalent(o, x, k) && Equivalent(o, y, k) {
      BeforeTransitive(o, x, k, y);
    }
  }

  lemma {:induction false} SortStable(o: SortOrder, s: seq<Product>, k: Product)
    ensures EquivalentTo(o, Sort(o, s), k) == EquivalentTo(o, s, k)
  {
    if s != [] {
      InsertStable(o, s[0], Sort(o, s[1..]), k);
      SortStable(o, s[1..], k);
    }
  }

  /** The `filteredProducts` list the grid shows. */
  function View(products: seq<Product>, f: FilterState, option: string): (r: seq<Product>)
    ensures Sorted(SortOrderOf(option), r)
    ensures forall p :: multiset(r)[p] == if Shown(f, p) then multiset(products)[p] else 0
    ensures forall p :: p in r <==> p in products && Shown(f, p)
  {
    SortSorted(SortOrderOf(option), Filter(products, f));
    FilterCounts(products, f);
    Sort(SortOrderOf(option), Filter(products, f))
  }

  /** A listed product is on screen exactly when the query occurs in its
    * name (letter case ignored), its category is the selected one if one is
    * selected, and it is a favourite if favourites-only is on. */
  lemma ShownExactly(products: seq<Product>, f: FilterState, option: string, p: Product)
    ensures p in View(products, f, option) <==>
      && p in products
      && (exists i :: MatchesAt(p.name, f.query, i))
      && (f.category.None? || p.categoryId == f.category.value.id)
      && (!f.favoritesOnly || p.favorite)
  {
  }

  /** The sort is stable: products with equal sort keys appear in the order
    * the product list has them. */
  lemma ViewStable(products: seq<Product>, f: FilterState, option: string, k: Product)
    ensures EquivalentTo(SortOrderOf(option), View(products, f, option), k)
      == EquivalentTo(SortOrderOf(option), Filter(products, f), k)
  {
    SortStable(SortOrderOf(option), Filter(products, f), k);
  }

  /** With an empty query and no filter switched on, every product is shown,
    * each as often as the list holds it. */
  lemma {:induction false} InitialFilterShowsAll(products: seq<Product>, option: string)
    ensures multiset(View(products, InitialFilter, option)) == multiset(products)
  {
    var r := View(products, InitialFilter, option);
    forall p ensures multiset(r)[p] == multiset(products)[p] {
      assert Shown(InitialFilter, p);
    }
  }
}

=== FILE: session.dfy ===
/**
 * The session store (`SharedPrefManager`, a key-value preference file named
 * "user"), the bearer-header rule of the gateway's interceptor, the
 * gateway's initialisation guard (`RetrofitClient`), and the start
 * destination the activity derives from the stored token.
 */
module Session {
  import opened Wrappers

  datatype PrefValue = StringPref(s: string) | BoolPref(b: bool) | IntPref(i: int)

  /** The preference file: a key is either absent or holds one typed value. */
  type Store = map<string, PrefValue>

  const EmptyStore: Store := map[]

  const AccessTokenKey := "access_token"
  const UsernameKey := "username"
  const IsAdminKey := "is_admin"
  const UserIdKey := "user_id"

  /** Every key the store writes holds the type its getter reads back. */
  predicate WellTyped(store: Store) {
    && (AccessTokenKey in store ==> store[AccessTokenKey].StringPref?)
    && (UsernameKey in store ==> store[UsernameKey].StringPref?)
    && (IsAdminKey in store ==> store[IsAdminKey].BoolPref?)
    && (UserIdKey in store ==> store[UserIdKey].IntPref?)
  }

  /** `saveAccessToken(token)`; `putString(key, null)` removes the key. */
  function SaveAccessToken(store: Store, token: Option<string>): (r: Store)
    requires WellTyped(store)
    ensures WellTyped(r)
    ensures AccessTokenKey in r <==> token.Some?
    ensures forall k :: k != AccessTokenKey ==> (k in r <==> k in store)
    ensures forall k :: k in store && k != AccessTokenKey ==> r[k] == store[k]
  {
    match token
    case Some(t) => store[AccessTokenKey := StringPref(t)]
    case None => store - {AccessTokenKey}
  }

  /** `saveUsername(username)`. */
  function SaveUsername(store: Store, username: string): (r: Store)
    requires WellTyped(store)
    ensures WellTyped(r) && UsernameKey in r
    ensures forall k :: k != UsernameKey ==> (k in r <==> k in store)
    ensures forall k :: k in store && k != UsernameKey ==> r[k] == store[k]
  {
    store[UsernameKey := StringPref(username)]
  }

  /** `saveIsAdmin(isAdmin)`. */
  function SaveIsAdmin(store: Store, isAdmin: bool): (r: Store)
    requires WellTyped(store)
    ensures WellTyped(r) && IsAdminKey in r
    ensures forall k :: k != IsAdminKey ==> (k in r <==> k in store)
    ensures forall k :: k in store && k != IsAdminKey ==> r[k] == store[k]
  {
    store[IsAdminKey := BoolPref(isAdmin)]
  }

  /** `savaUserId(userId)` (sic). */
  function SaveUserId(store: Store, userId: int): (r: Store)
    requires WellTyped(store)
    ensures WellTyped(r) && UserIdKey in r
    ensures forall k :: k != UserIdKey ==> (k in r <==> k in store)
    ensures forall k :: k in store && k != UserIdKey ==> r[k] == store[k]
  {
    store[UserIdKey := IntPref(userId)]
  }

  /** `getAccessToken()`: the stored token, or null when unset. */
  function GetAccessToken(store: Store): (r: Option<string>)
    requires WellTyped(store)
    ensures AccessTokenKey !in store ==> r == None
    ensures r.Some? <==> AccessTokenKey in store
  {
    if AccessTokenKey in store then Some(store[AccessTokenKey].s) else None
  }

  /** `getUsername()`: the stored name, or "" when unset. */
  function GetUsername(store: Store): (r: string)
    requires WellTyped(store)
    ensures UsernameKey !in store ==> r == ""
  {
    if UsernameKey in store then store[UsernameKey].s else ""
  }

  /** `getIsAdmin()`: the stored flag, or false when unset. */
  function GetIsAdmin(store: Store): (r: bool)
    requires WellTyped(store)
    ensures IsAdminKey !in store ==> !r
  {
    if IsAdminKey in store then store[IsAdminKey].b else false
  }

  /** `getUserId()`: the stored id, or 0 when unset. */
  function GetUserId(store: Store): (r: int)
    requires WellTyped(store)
    ensures UserIdKey !in store ==> r == 0
  {
    if UserIdKey in store then store[UserIdKey].i else 0
  }

  /** A fresh store answers every getter with its default. */
  lemma EmptyStoreDefaults()
    ensures WellTyped(EmptyStore)
    ensures GetAccessToken(EmptyStore) == None
    ensures GetUsername(EmptyStore) == ""
    ensures !GetIsAdmin(EmptyStore)
    ensures GetUserId(EmptyStore) == 0
  {
  }

  /** Each getter returns what its save wrote, and a null token reads back
    * as null. */
  lemma SaveGetRoundTrip(store: Store, token: Option<string>, username: string, isAdmin: bool, userId: int)
    requires WellTyped(store)
    ensures GetAccessToken(SaveAccessToken(store, token)) == token
    ensures GetUsername(SaveUsername(store, username)) == username
    ensures GetIsAdmin(SaveIsAdmin(store, isAdmin)) == isAdmin
    ensures GetUserId(SaveUserId(store, userId)) == userId
  {
  }

  /** Each save leaves what the other three getters return unchanged. */
  lemma SaveFrame(store: Store, token: Option<string>, username: string, isAdmin: bool, userId: int)
    requires WellTyped(store)
    ensures var r := SaveAccessToken(store, token);
      GetUsername(r) == GetUsername(store) && GetIsAdmin(r) == GetIsAdmin(store) && GetUserId(r) == GetUserId(store)
    ensures var r := SaveUsername(store, username);
      GetAccessToken(r) == GetAccessToken(store) && GetIsAdmin(r) == GetIsAdmin(store) && GetUserId(r) == GetUserId(store)
    ensures var r := SaveIsAdmin(store, isAdmin);
      GetAccessToken(r) == GetAccessToken(store) && GetUsername(r) == GetUsername(store) && GetUserId(r) == GetUserId(store)
    ensures var r := SaveUserId(store, userId);
      GetAccessToken(r) == GetAccessToken(store) && GetUsername(r) == GetUsername(store) && GetIsAdmin(r) == GetIsAdmin(store)
  {
  }

  /** An HTTP header, name and value. */
  datatype Header = Header(name: string, value: string)

  /** The interceptor installed by `initialize`: it reads the token from the
    * store at the time of each request and appends
    * `Authorization: Bearer <token>` when one is stored. */
  function Intercept(headers: seq<Header>, store: Store): (r: seq<Header>)
    requires WellTyped(store)
    ensures GetAccessToken(store).Some? ==>
      r == headers + [Header("Authorization", "Bearer " + GetAccessToken(store).value)]
    ensures GetAccessToken(store).None? ==> r == headers
  {
    match GetAccessToken(store)
    case Some(token) => headers + [Header("Authorization", "Bearer " + token)]
    case None => headers
  }

  /** The request carries an authorisation header exactly when a token is
    * stored, given it carried none before. */
  lemma BearerExactlyWhenToken(headers: seq<Header>, store: Store)
    requires WellTyped(store)
    requires forall h :: h in headers ==> h.name != "Authorization"
    ensures (exists h :: h in Intercept(headers, store) && h.name == "Authorization")
      <==> AccessTokenKey in store
  {
    var r := Intercept(headers, store);
    if AccessTokenKey in store {
      assert r[|headers|] in r;
    }
  }

  const BaseUrl := "https://spotdiff.ru/agro-market/"

  const NotInitializedMessage := "RetrofitClient is not initialized. Call initialize() first."

  /** The `RetrofitClient` singleton: whether `initialize` has run. */
  datatype Client = Client(initialized: bool)

  const InitialClient := Client(false)

  /** `getApiService()`: the gateway, or the `IllegalStateException` it throws. */
  datatype ServiceResult = Gateway(baseUrl: string) | IllegalState(message: string)

  function Initialize(c: Client): (r: Client)
    ensures r.initialized
  {
    Client(true)
  }

  function GetApiService(c: Client): (r: ServiceResult)
    ensures r.Gateway? <==> c.initialized
    ensures r.Gateway? ==> r.baseUrl == BaseUrl
    ensures r.IllegalState? ==> r.message == NotInitializedMessage
  {
    if !c.initialized then IllegalState(NotInitializedMessage) else Gateway(BaseUrl)
  }

  /** The gateway fails before `initialize` and succeeds after it, however
    * often `initialize` runs. */
  lemma InitializeGuard(c: Client)
    ensures GetApiService(InitialClient).IllegalState?
    ensures GetApiService(Initialize(c)) == Gateway(BaseUrl)
    ensures Initialize(Initialize(c)) == Initialize(c)
  {
  }

  /** The activity's start destination: "auth" without a stored token,
    * "main" with one. */
  function StartDestination(store: Store): (route: string)
    requires WellTyped(store)
    ensures route == "auth" <==> AccessTokenKey !in store
    ensures route == "auth" || route == "main"
  {
    if GetAccessToken(store) == None then "auth" else "main"
  }
}

=== FILE: text.dfy ===
/**
 * The Kotlin standard-library string behaviour the screens rely on:
 * `contains(query, ignoreCase = true)` for the product search,
 * `isBlank()` for the form guards, and `String.compareTo` for the
 * alphabetical sort orders.
 */
module Text {
  import opened Wrappers

  /** `Char.uppercaseChar()` on the ASCII letters and the basic Cyrillic letters
    * (U+0430..U+044F and U+0450..U+045F map down to their capitals). */
  function UpperChar(c: char): char {
    if 'a' <= c <= 'z' then (c as int - 32) as char
    else if '\U{0430}' <= c <= '\U{044F}' then (c as int - 32) as char
    else if '\U{0450}' <= c <= '\U{045F}' then (c as int - 80) as char
    else c
  }

  /** `Char.lowercaseChar()` on the same letters. */
  function LowerChar(c: char): char {
    if 'A' <= c <= 'Z' then (c as int + 32) as char
    else if '\U{0410}' <= c <= '\U{042F}' then (c as int + 32) as char
    else if '\U{0400}' <= c <= '\U{040F}' then (c as int + 80) as char
    else c
  }

  /** `Char.equals(other, ignoreCase = true)`: equal, equal upper cases,
    * or equal lower cases of the upper cases. */
  predicate EqualsIgnoreCase(a: char, b: char): (r: bool)
    ensures a == b ==> r
  {
    a == b || UpperChar(a) == UpperChar(b)
    || LowerChar(UpperChar(a)) == LowerChar(UpperChar(b))
  }

  /** Ignoring case does not depend on which side is the query. */
  lemma EqualsIgnoreCaseSymmetric(a: char, b: char)
    ensures EqualsIgnoreCase(a, b) <==> EqualsIgnoreCase(b, a)
  {
  }

  /** Case-insensitive comparison treats a capital and its small letter alike. */
  lemma CapitalMatchesSmall(c: char)
    requires 'a' <= c <= 'z' || '\U{0430}' <= c <= '\U{044F}'
    ensures EqualsIgnoreCase(c, UpperChar(c)) && UpperChar(c) != c
  {
  }

  /** `query` occurs in `s` at offset `i`, letter case ignored. */
  predicate MatchesAt(s: string, query: string, i: int) {
    0 <= i && i + |query| <= |s|
    && forall j :: 0 <= j < |query| ==> EqualsIgnoreCase(s[i + j], query[j])
  }

  /** The character-by-character loop of `regionMatches`, from position `k` of the query on. */
  function RegionMatchesFrom(s: string, i: nat, query: string, k: nat): (b: bool)
    requires i + |query| <= |s| && k <= |query|
    ensures b <==> forall j :: k <= j < |query| ==> EqualsIgnoreCase(s[i + j], query[j])
    decreases |query| - k
  {
    k == |query| || (EqualsIgnoreCase(s[i + k], query[k]) && RegionMatchesFrom(s, i, query, k + 1))
  }

  /** `indexOf(query, start, ignoreCase = true)`: the first offset at or after
    * `start` where `query` occurs, or -1. */
  function IndexOfFrom(s: string, query: string, start: nat): (r: int)
    ensures r == -1 || (start <= r && MatchesAt(s, query, r))
    ensures r == -1 ==> forall i :: start <= i ==> !MatchesAt(s, query, i)
    ensures r != -1 ==> forall i :: start <= i < r ==> !MatchesAt(s, query, i)
    decreases |s| + 1 - start
  {
    if start + |query| > |s| then -1
    else if RegionMatchesFrom(s, start, query, 0) then start
    else IndexOfFrom(s, query, start + 1)
  }

  /** `s.contains(query, ignoreCase = true)`. */
  function ContainsIgnoreCase(s: string, query: string): (b: bool)
    ensures b <==> exists i :: MatchesAt(s, query, i)
    ensures query == [] ==> b
  {
    assert query == [] ==> MatchesAt(s, query, 0);
    IndexOfFrom(s, query, 0) >= 0
  }

  /** `Char.isWhitespace()` on the JVM: `Character.isWhitespace` or
    * `Character.isSpaceChar`. */
  predicate IsWhitespace(c: char) {
    c == '\t' || c == '\n' || c == '\U{000B}' || c == '\U{000C}' || c == '\r'
    || ('\U{001C}' <= c <= ' ') || c == '\U{00A0}' || c == '\U{1680}'
    || ('\U{2000}' <= c <= '\U{200A}') || c == '\U{2028}' || c == '\U{2029}'
    || c == '\U{202F}' || c == '\U{205F}' || c == '\U{3000}'
  }

  /** `CharSequence.isBlank()`: empty or whitespace only. */
  function IsBlank(s: string): (b: bool)
    ensures b <==> forall i :: 0 <= i < |s| ==> IsWhitespace(s[i])
  {
    if s == [] then true else IsWhitespace(s[0]) && IsBlank(s[1..])
  }

  /** `a.compareTo(b) <= 0` for strings: lexicographic by character,
    * a proper prefix first. */
  predicate StringLessEq(a: string, b: string): (r: bool)
    ensures a <= b ==> r
  {
    if a == [] then true
    else if b == [] then false
    else if a[0] != b[0] then a[0] < b[0]
    else StringLessEq(a[1..], b[1..])
  }

  lemma {:induction false} StringLessEqTotal(a: string, b: string)
    ensures StringLessEq(a, b) || StringLessEq(b, a)
  {
    if a != [] && b != [] && a[0] == b[0] {
      StringLessEqTotal(a[1..], b[1..]);
    }
  }

  lemma {:induction false} StringLessEqTransitive(a: string, b: string, c: string)
    requires StringLessEq(a, b) && StringLessEq(b, c)
    ensures StringLessEq(a, c)
  {
    if a != [] && b != [] && c != [] && a[0] == b[0] && b[0] == c[0] {
      StringLessEqTransitive(a[1..], b[1..], c[1..]);
    }
  }

  lemma {:induction false} StringLessEqAntisymmetric(a: string, b: string)
    requires StringLessEq(a, b) && StringLessEq(b, a)
    ensures a == b
  {
    if a != [] && b != [] {
      StringLessEqAntisymmetric(a[1..], b[1..]);
      assert a == [a[0]] + a[1..] && b == [b[0]] + b[1..];
    }
  }

  /** A nullable string as a Kotlin string template prints it. */
  function Render(s: Option<string>): (r: string)
    ensures s.Some? ==> r == s.value
    ensures s.None? ==> r == "null"
  {
    s.GetOr("null")
  }
}

=== FILE: wrappers.dfy ===
/** Nullable values of the Kotlin source, written as an explicit option type. */
module Wrappers {

  /** `None` stands for Kotlin's `null`. */
  datatype Option<+T> = None | Some(value: T) {

    /** Kotlin's elvis operator `x ?: default`. */
    function GetOr(default: T): T {
      match this
      case Some(v) => v
      case None => default
    }
  }
}
